=== FILE: README.md ===
# ztpserver topology: a Dafny model

ZTPServer provisions switches. When a switch boots, it reports its identity
and its LLDP neighbours. The server then decides which provisioning
*definition* applies by matching that report against the *neighbour
database*, a list of topology *patterns*. This project models the core of
that decision in `ztpserver/topology.py`, and the small resource-pool
allocator next to it. It proves properties of the model.

- **Ranges.** `InterfacePattern.range` expands an interface or port
  specifier such as `Ethernet1-3,5` into individual names.
- **Functions.** The `Functions` class (`exact`, `regex`, `includes`,
  `excludes`) and the `FUNC_RE` parser of `name('arg')` call syntax.
- **Neighbors.** The node's neighbour table (an ordered map from local
  interface to `(device, port)` pairs), `Node.add_neighbors` and
  `create_node`'s MAC normalisation.
- **Interfaces.** `InterfacePattern`:
  - construction;
  - `serialize`;
  - `match_device`, with variable substitution and dispatch by function name;
  - `match_port`;
  - `match_neighbors`, which picks at most one interface of the table.
- **Patterns.** `Pattern`:
  - construction from a document entry;
  - `_parse_interface` and `add_interfaces`;
  - `serialize`;
  - `match_node`, the greedy pass over interface patterns that claims and
    removes interfaces from a working copy of the table.
- **Topology.** `Topology.deserialize`, `add_pattern`, `get_patterns` and
  `match_node`.
- **Resources.** `Resources.lookup` and `Resources.allocate` over a pool.
  A pool is an ordered map from resource key to the MAC holding it, or
  `None` while the key is free.
- **Resolver.** The module function `resources`. It walks a definition's
  attribute tree and replaces every `name('arg')` text with the result of
  the named pool method.
- **Scenarios.** Concrete cases:
  - the `spine1` uplink;
  - an interface that must have no neighbour;
  - the working-table reading of the no-neighbour check;
  - a pattern that raises after it has updated the topology's variables.

Python exceptions become `Err` values of `Base.Result`, with one `Error`
constructor per exception class the code raises or catches: `TypeError`,
`ValueError`, `AttributeError`, `ResourcesError`, and `RegexError` for
`re.error`. `add_pattern` catches `TypeError`, so there the error decides
whether an entry is skipped or escapes. The regular-expression engine
behind `Functions.regex` is a parameter `regex: RegexEngine`. It says
whether a pattern compiles (`re.match` raises `re.error` before it looks
at the value) and whether a compiled pattern matches. So is the
`DEVICENAME_PARSER_RE` / `ANYDEVICE_PARSER_RE` colon split of a
`device:port[:tags]` entry: a parameter `split`, whose `None` result
stands for both splits raising `ValueError`. The pool methods that
`resources` calls are a parameter `invoke` too. File access happens in
those methods and is not modelled.

Three quirks of the code that the model keeps as written:

- In `Pattern.match_node`, an interface pattern with no device
  (`Management1: none`) tests the *working* table. That table has already
  lost the interfaces earlier lines claimed; it is not the node's original
  table (`ztpserver/topology.py:439`).
  `Scenarios.NoneCheckReadsWorkingTable` exhibits a pattern that matches
  for that reason.
- `Pattern.match_node` calls `variables.update(self.variables)` on the
  dictionary it is handed. `Topology.match_node` hands it the topology's own
  `variables`, so matching a node changes the topology. The update happens
  before `match_neighbors` can raise, so it survives an exception too. The
  model returns the updated variables on both paths:
  `Patterns.Outcome.variables` and `Patterns.VariablesAfter`, and
  `Topology.Run.variables`; `Topology.Layered` is their fold over a run. `Scenarios.RaisingPatternKeepsVariables` shows
  a pattern that raises and still leaves its variable in the topology.
- A mapping-form interface entry whose device is neither `any` nor `none`
  reaches the colon split with a mapping, which raises `TypeError`. So the
  whole pattern entry is skipped by `add_pattern`.

## Model

| member | source | states |
|---|---|---|
| Ranges.Range | ztpserver/topology.py:482-499 | a missing specifier expands to nothing, one not starting with `Ethernet` to itself alone, and a family specifier only to `Ethernet` names |
| Ranges.IndexText | ztpserver/topology.py:488 | the index text holds no letter and is no longer than the specifier |
| Ranges.IndexTextSpec | ztpserver/topology.py:488 | the index text is the letter-free run that directly follows the leading letters, ending at the next letter or at the end |
| Ranges.ExpandPiece | ztpserver/topology.py:493-498 | every name a comma piece yields carries the family prefix |
| Ranges.Span | ztpserver/topology.py:495-496 | `a-b` yields `b-a+1` names, none when `b < a`, the i-th being `Ethernet<a+i>` |
| Ranges.RangeOfPieces | ztpserver/topology.py:488-499 | a family range is the concatenation, in comma order, of its pieces' expansions |
| Ranges.ExpandSpan | ztpserver/topology.py:493-496 | the piece `<a>-<b>` expands to the ascending span from `a` to `b` |
| Ranges.RangeSpan | ztpserver/topology.py:482-499 | `Ethernet<a>-<b>` expands to the ascending span from `a` to `b` |
| Text.ParseIntSigned | ztpserver/topology.py:495 | Python 2's `int` reads `n` from its decimal text with whitespace around it and a `+` sign that may itself be followed by whitespace |
| Ranges.ExpandSignedSpan | ztpserver/topology.py:493-496 | the piece `+ <a>-<b>`, with whitespace after the sign, expands to the same span as `<a>-<b>` |
| Ranges.RangeSignedSpan | ztpserver/topology.py:482-499 | `Ethernet+ <a>-<b>` expands to the ascending span from `a` to `b`, as Python 2's `int` skips whitespace after the sign |
| Ranges.RangeSingle | ztpserver/topology.py:497-498 | a single index is kept verbatim, not passed through `int` |
| Ranges.RangeExample | ztpserver/topology.py:482-499 | `Ethernet1-3,5` expands to `Ethernet1, Ethernet2, Ethernet3, Ethernet5` |
| Functions.LookupFunction | ztpserver/topology.py:221-238 | a function name resolves exactly when it is one of `exact`, `regex`, `includes`, `excludes`; every other name is taken as unknown |
| Functions.Apply | ztpserver/topology.py:221-238 | only `regex` raises, with `re.error`, and only on an argument the engine cannot compile, whatever the value; `exact` is equality and a compiling `regex` is the engine's match |
| Functions.IncludesExcludesComplement | ztpserver/topology.py:232-238 | `includes` and `excludes` never raise, `excludes` is the negation of `includes`, and `includes` is substring occurrence |
| Functions.ParseCall | ztpserver/topology.py:48-49 | a match yields a non-empty word name that the text starts with, followed by `(`, and a non-empty argument |
| Functions.ParseCallRender | ztpserver/topology.py:48-49 | `name('arg')` or `name("arg")` parses back to the same name and argument, whatever text follows |
| Neighbors.RemoveSpec | ztpserver/topology.py:449-451 | deleting an interface removes exactly that key, keeps every other key's neighbours and keeps keys distinct |
| Neighbors.PutSpec | ztpserver/topology.py:134 | assigning a new interface appends it; the assigned key reads back its list and no other key changes |
| Neighbors.AddNeighborsDistinct | ztpserver/topology.py:129-134 | a report with distinct interface names becomes exactly that table, in order |
| Neighbors.StripColonsFixed | ztpserver/topology.py:543-544 | stripping leaves a MAC unchanged exactly when it has no colon, so normalising twice is normalising once |
| Neighbors.StripColonsKeeps | ztpserver/topology.py:543-544 | every character other than a colon keeps its number of occurrences |
| Neighbors.CreateNode | ztpserver/topology.py:541-546 | a present MAC stays present and loses its colons, a missing one stays missing, and a report with distinct interface names becomes the table |
| Interfaces.NewInterfacePattern | ztpserver/topology.py:457-464 | construction succeeds exactly when both the interface and the port expand; it keeps the fields, stores the expansions, and a missing or falsy tag value becomes the empty list |
| Interfaces.Serialize | ztpserver/topology.py:470-479 | a missing device serializes as `none` with no port; any other keeps its device and port; tags are always present |
| Interfaces.MatchDevice | ztpserver/topology.py:518-530 | a missing device accepts nothing and `any` accepts everything; the call raises exactly when the specifier, after substitution, names an unknown function (`AttributeError`) or a `regex` argument that does not compile (`re.error`), whatever device is observed |
| Interfaces.FalsyVariableIgnored | ztpserver/topology.py:525 | a variable whose value is empty has the same effect as no variable: the raw specifier is used |
| Interfaces.VariableSubstituted | ztpserver/topology.py:525-530 | a specifier naming a variable with a non-empty, call-free value accepts exactly that device |
| Interfaces.DispatchMatcher | ztpserver/topology.py:525-529 | a `name('arg')` specifier selects the named function with its argument, or raises `AttributeError` for an unknown name |
| Interfaces.DispatchByName | ztpserver/topology.py:518-530 | `exact`, `includes`, `excludes` apply to the argument and the observed device; `regex` does so when its argument compiles and raises `re.error` otherwise; any other name raises `AttributeError` |
| Interfaces.IncludesExcludesDevices | ztpserver/topology.py:518-530 | `includes('x')` and `excludes('x')` specifiers give opposite verdicts on every device |
| Interfaces.MatchPort | ztpserver/topology.py:532-538 | port `any` accepts; a missing port with a missing device rejects; a missing port accepts exactly when the device is `any`; a non-family port accepts exactly its own name |
| Interfaces.MatchPortSpan | ztpserver/topology.py:532-538 | a port range `Ethernet<a>-<b>` accepts exactly the names `Ethernet<i>` with `a <= i <= b` |
| Interfaces.CandidatesSpec | ztpserver/topology.py:502-505 | the wildcard examines every key of the table, in table order; a declared interface or range examines exactly the declared names that are keys of the table |
| Interfaces.PresentOrder | ztpserver/topology.py:505 | the declared names are filtered in declared order: a concatenation filters part by part, and a single name is kept exactly when it is a key of the table |
| Interfaces.MatchNeighbors | ztpserver/topology.py:501-516 | at most one interface is returned; it is a candidate present in the table and, for a declared interface set, the first candidate |
| Interfaces.NeighborAcceptedSpec | ztpserver/topology.py:509-513 | the inner loop answers whether some neighbour passes both specifiers; a specifier that raises does so, with its own exception, as soon as there is a neighbour |
| Interfaces.ScanSpec | ztpserver/topology.py:507-513 | the outer loop keeps, in order, exactly the candidates that carry an accepting neighbour |
| Interfaces.ScanFaulty | ztpserver/topology.py:507-513 | a specifier that raises does so, with its own exception, exactly when some candidate has a neighbour to test |
| Interfaces.AcceptedOfAll | ztpserver/topology.py:514-515 | the accepted candidates equal all the candidates exactly when every candidate has an accepting neighbour |
| Interfaces.MatchNeighborsSpec | ztpserver/topology.py:501-516 | a declared interface set matches exactly when it is present and every present interface accepts, and then yields its first; the wildcard matches exactly when some interface accepts; the result is the first accepting candidate |
| Interfaces.MatchNeighborsShape | ztpserver/topology.py:507-516 | with a specifier that does not raise, the result is the first accepted candidate, or nothing when none is accepted or a declared interface set is not accepted in full |
| Interfaces.MatchNeighborsFaulty | ztpserver/topology.py:501-516 | with a specifier that raises, the match raises exactly when some candidate has a neighbour, and otherwise finds nothing |
| Interfaces.MatchNeighborsSound | ztpserver/topology.py:501-516 | a returned interface is in the table and carries an accepting neighbour |
| Patterns.ParseInterface | ztpserver/topology.py:398-424 | the interface name is kept; `any` (as text or as device) gives `any`/`any` without tags; a mapping with any other device, or a value that is neither text nor mapping, raises `TypeError` |
| Patterns.ParseDevicePort | ztpserver/topology.py:413-422 | `device:port` splits into the device (replaced by the pattern variable it names, unless `any`) and the port, without tags |
| Patterns.ParseDevicePortTags | ztpserver/topology.py:413-422 | `device:port:tags` also yields the text after the second colon as tags |
| Patterns.ParseNone | ztpserver/topology.py:410-411 | `none` (as text or as device) gives no device, no port and no tags |
| Patterns.ParseAll | ztpserver/topology.py:390-396 | one interface pattern per entry, in order, named after the entry and built from its own expansions |
| Patterns.ParseAllSpec | ztpserver/topology.py:390-396 | the list parses exactly when every entry parses, and then holds each entry's own result at its position |
| Patterns.NewPattern | ztpserver/topology.py:341-351 | a non-mapping entry or one missing `name` or `definition` raises `TypeError`; otherwise variables and node are kept and every interface pattern is well formed |
| Patterns.SerializeAll | ztpserver/topology.py:381-384 | one single-key entry per interface pattern, in order |
| Patterns.SerializePattern | ztpserver/topology.py:374-385 | `node` is written exactly when it is truthy; every interface pattern is written |
| Patterns.ReparseInterface | ztpserver/topology.py:398-424 | a serialized `any` or `none` interface reads back as itself; the literal device `none` (from `none:Ethernet1`) reads back as a line without a device and port; the device `any` reads back with port `any`; any other device reads back as `TypeError` |
| Patterns.SerializeRoundTrip | ztpserver/topology.py:374-385 | a pattern whose interfaces are all `any` or `none` and whose node is not empty reads back from its serialization unchanged |
| Patterns.MatchFrom | ztpserver/topology.py:432-453 | an empty interface list matches; the caller's variables come back updated with the pattern's once a device-bearing line is reached, and the loop raises only at such a line |
| Patterns.MatchNode | ztpserver/topology.py:425-453 | a pattern without interfaces matches; the caller's variables are updated with the pattern's whenever its first line names a device, and always when the match raises |
| Patterns.StepAccepting | ztpserver/topology.py:442-451 | the interface one step claims carries a neighbour the interface pattern accepts |
| Patterns.ClaimsSpec | ztpserver/topology.py:442-451 | the claimed interfaces are keys of the node's table, pairwise distinct, and each accepted by its own interface pattern |
| Patterns.MatchClaimsAll | ztpserver/topology.py:432-453 | a successful match of device-bearing lines claims one interface per line |
| Patterns.MatchNeedsInterfaces | ztpserver/topology.py:426-453 | a pattern of device-bearing lines matches only a node with at least as many interfaces as lines |
| Patterns.NoneDeviceVerdict | ztpserver/topology.py:437-439 | a line without a device decides the match at once: it matches exactly when its raw interface name is not a key of the working table, and the caller's variables are not updated |
| Patterns.NoneDeviceStops | ztpserver/topology.py:437-439 | lines after a device-less line are never consulted |
| Patterns.UnmatchedFails | ztpserver/topology.py:441-446 | a device-bearing line that matches nothing fails the pattern |
| Topology.Substitute | ztpserver/topology.py:288-292 | only devices change, each replaced by the topology variable it names unless missing or `any` |
| Topology.SubstituteKeeps | ztpserver/topology.py:290-292 | missing and `any` devices, and devices naming no variable, are left alone, and well-formedness is kept |
| Topology.Adopt | ztpserver/topology.py:285-296 | a `TypeError` skips the entry; any other error escapes |
| Topology.AddPattern | ztpserver/topology.py:284-301 | a skipped entry leaves the topology unchanged; a bound entry touches only the node patterns; an unbound one appends exactly one global; variables never change |
| Topology.AddAllGlobals | ztpserver/topology.py:281-301 | the globals are the existing ones followed by the unbound entries' patterns in document order |
| Topology.AddAllNodes | ztpserver/topology.py:281-301 | each identity holds the last bound entry for it, or what it held before |
| Topology.Overwrite | ztpserver/topology.py:298-299 | a second entry bound to the same identity replaces the first |
| Topology.Deserialize | ztpserver/topology.py:272-282 | `any` and `none` are dropped from the variables and every other variable is kept; a missing pattern list raises `TypeError` |
| Topology.GetPatterns | ztpserver/topology.py:304-318 | a node with a bound pattern gets that pattern alone, any other node the globals |
| Topology.MatchCandidates | ztpserver/topology.py:325-333 | the matches are an order-preserving sublist of the candidates, and no variable is lost, whether the run returns or raises |
| Topology.MatchTopology | ztpserver/topology.py:320-333 | only the topology's variables change, none is lost, also when a pattern raises, and the matches are an order-preserving sublist of what `get_patterns` returns |
| Topology.MatchCandidatesThreaded | ztpserver/topology.py:325-333 | a run that raises nothing returns exactly the matching patterns, in order, each tried under the variables the patterns before it left, and leaves every pattern's variables layered over the caller's in turn |
| Topology.MatchCandidatesRaised | ztpserver/topology.py:325-333 | a run that raises stops at the first pattern that raises under the variables its predecessors left, raises that pattern's exception, and leaves the variables layered up to and including that pattern |
| Topology.MatchTopologyThreaded | ztpserver/topology.py:320-333 | when nothing raises, `match_node` returns the matching patterns among those `get_patterns` gives, each tried under the variables left before it, and the topology ends with every candidate pattern's variables layered over its own |
| Topology.RaisedVariablesKept | ztpserver/topology.py:326-328 | when a pattern raises, the run stops at a pattern that raises and that pattern's variables are in force in the topology afterwards |
| Topology.BoundNodeOnly | ztpserver/topology.py:304-333 | a node with a bound pattern never matches a global pattern |
| Topology.MatchCandidatesFilter | ztpserver/topology.py:320-333 | the variable-free special case of `Topology.MatchCandidatesThreaded`: when no pattern brings variables, the caller's variables are left as they were and the result is the order-preserving filter of the patterns that match under them |
| Resources.Lookup | ztpserver/topology.py:212-218 | a key is found exactly when some entry holds the MAC, and it is the first key held by it |
| Resources.Claim | ztpserver/topology.py:203-207 | claiming fails, with `ResourcesError`, exactly when no key is free; otherwise the first free key is handed out and only its entry changes, to the MAC |
| Resources.Allocate | ztpserver/topology.py:194-210 | as written, a failure is `ResourcesError` with every key taken; the key handed out is held by the MAC in the pool as stored, and that pool is unchanged or has one free entry taken |
| Resources.AllocateExisting | ztpserver/topology.py:194-198 | of the corrected `AllocateChecked`, which equals the source's `allocate` when no key is empty (`Resources.AllocateAgrees`): a node already holding a key gets its first such key back and the pool is not written |
| Resources.AllocateFresh | ztpserver/topology.py:200-210 | of `AllocateChecked` (equal to the source when no key is empty): a node holding no key gets the first free key, which now holds its MAC; no other entry changes |
| Resources.AllocateExhausted | ztpserver/topology.py:194-207 | of `AllocateChecked` (equal to the source when no key is empty): allocation fails, with `ResourcesError`, exactly when the node holds no key and none is free |
| Resources.AllocateThenLookup | ztpserver/topology.py:194-218 | of `AllocateChecked` (equal to the source when no key is empty): after allocation, lookup finds the key that was handed out |
| Resources.AllocateIdempotent | ztpserver/topology.py:194-210 | of `AllocateChecked` (the source fails this for an empty key, `Resources.EmptyKeyAllocatedTwice`): a second allocation for the same node returns the same key and the same pool |
| Resources.AllocateKeepsUnique | ztpserver/topology.py:203-205 | of `AllocateChecked` (the source fails this for an empty key): if no MAC holds two keys before an allocation, none does after |
| Resources.AllocateWithoutMac | ztpserver/topology.py:212-218 | of `AllocateChecked` (equal to the source when no key is empty): a node without a MAC is handed the first free key and nothing is written |
| Resources.AllocateAgrees | ztpserver/topology.py:194-198 | when no key is the empty string, `if match:` behaves as a test for `None` |
| Resources.EmptyKeyAllocatedTwice | ztpserver/topology.py:194-198 | a node holding the empty-string key is allocated a second key, so its MAC is held twice |
| Resolver.ResolveValue | ztpserver/topology.py:573-594 | scalars are kept; mappings and lists keep their kind and length |
| Resolver.ResolveString | ztpserver/topology.py:586-590 | a text `FUNC_RE` does not match, in particular one without `(`, is kept as it is |
| Resolver.ResolveItems | ztpserver/topology.py:576-585 | a resolved list has one item per original item |
| Resolver.ResolveFrom | ztpserver/topology.py:573-595 | the resolved mapping keeps every key, in order |
| Resolver.ResolveItemsValues | ztpserver/topology.py:576-585 | every item of a resolved list was a text and is replaced by its own resolution: a `name('arg')` item by the pool method's result, any other text kept |
| Resolver.ResolveFromOk | ztpserver/topology.py:573-595 | a mapping resolves exactly when every one of its values does |
| Resolver.ResolveFromValues | ztpserver/topology.py:573-595 | each value of a resolved mapping is its own value's resolution, calls nested in lists and mappings included |
| Resolver.ResourcesValues | ztpserver/topology.py:569-595 | `resources` succeeds exactly when every attribute value resolves, and then maps each key to its own value's resolution |
| Resolver.Resources | ztpserver/topology.py:569-595 | the result has exactly the attribute keys, in order |
| Resolver.ItemsCallFree | ztpserver/topology.py:576-585 | a list of texts without calls is returned unchanged |
| Resolver.CallFreeUnchanged | ztpserver/topology.py:569-595 | an attribute tree without calls resolves to itself |
| Resolver.EntriesCallFree | ztpserver/topology.py:573-595 | a mapping without calls resolves to itself |
| Resolver.CallDispatched | ztpserver/topology.py:586-590 | a text `name('arg')` becomes the result of the pool method `name` with `arg` |
| Resolver.ItemsFail | ztpserver/topology.py:576-585 | when every method call succeeds, a list fails exactly when it holds a non-text item, with `TypeError` |
| Scenarios.UplinkAccepts | ztpserver/topology.py:518-530 | `exact('spine1')` accepts the device `spine1` |
| Scenarios.SpineMatches | ztpserver/topology.py:501-516 | `any: exact('spine1'):any` claims `Ethernet3`, whose neighbour is `spine1` |
| Scenarios.SpineConsumed | ztpserver/topology.py:426-453 | the uplink line matches once, and repeated it fails because `Ethernet3` was removed |
| Scenarios.ManagementAbsent | ztpserver/topology.py:437-439 | a node without `Management1` matches `Management1: none` whatever lines follow |
| Scenarios.NoneCheckReadsWorkingTable | ztpserver/topology.py:430-451 | `any: any` then `Ethernet1: none` matches a node whose table has `Ethernet1`, because the first line claimed it |
| Scenarios.RaisingPatternKeepsVariables | ztpserver/topology.py:320-333 | a pattern with variable `v` whose line names an unknown function raises `AttributeError`, and the topology holds `v` afterwards |

## Left out

- File and serializer I/O (`load`, `loads`, `dump`, `dumps`, `open`, `Serializer.convert`): documents, pools and reports are taken as already-parsed values.
- Configuration lookups, the module-level `neighbordb` with `clear`, `load` and `loads`, and logging: these are process plumbing, not decision logic.
- The regular-expression engine behind `Functions.regex` is a parameter: whether a pattern compiles and whether a compiled pattern matches.
- Functions.LookupFunction: attributes `Functions` inherits from `object` and `type` (`mro`, `__init__`, `__format__` and the like) are treated as unknown names that raise `AttributeError`. In the source `getattr` finds them, so such a specifier raises `TypeError` or, like `__format__('x')`, returns a value. This affects `Interfaces.MatchDevice`, `Interfaces.DispatchMatcher` and `Interfaces.DispatchByName` alike.
- Topology.Deserialize: variable values, of the topology and of each pattern, are texts. A null value and non-text values are not modelled. A null value would be substituted for the device and turn the line into a `none` line. A non-text value makes `FUNC_RE.match` raise `TypeError`. `Interfaces.FalsyVariableIgnored` covers the empty text only.
- The `DEVICENAME_PARSER_RE` / `ANYDEVICE_PARSER_RE` split of `device:port` text is a parameter. The split of the port at `:` and the `ValueError` for a third colon are modelled.
- `Functions.ParseCall` models `FUNC_RE` as a `name('arg')` prefix parser. Its quote class admits `|` as the source's does. Other regex corner cases (backtracking across several closing quotes, line breaks inside the argument) follow the lazy-match reading and are not proved equal to Python's engine.
- `Node.serialize`: it returns nothing, so it has no result to state.
- `Topology.Deserialize`: an error that escapes `add_pattern` is returned as an error. The topology the Python object is left in, with the entries before the error added, is not returned.
- Concurrency of pool allocation: the code has no locking, so only the sequential load-modify-store effect is modelled.
- Dictionary order: Python 2 `dict` iteration order is not specified. Pools, attribute mappings, neighbour reports and each interface entry are sequences in the order given, so "first free key" means first in that order.
- The `str`/`unicode` distinction in `resources`: a text is any `Resolver.Str`; other scalars are `Resolver.Scalar`.
- Interface entries that are not mappings (`interface.items()` raising `AttributeError`) are not modelled. `Patterns.RawPattern` holds only mapping entries.
- Resolver.ResolveValue: its own contract gives the kind and length of a nested value only. The content of each element is in `Resolver.ResolveItemsValues` (list items) and `Resolver.ResolveFromValues` (mapping values, nested calls included).
- Resolver.ResolveItems: its own contract gives the length only; item contents are in `Resolver.ResolveItemsValues`.
- Resolver.ResolveFrom: its own contract gives the keys only; the values are in `Resolver.ResolveFromOk` and `Resolver.ResolveFromValues`.
- Resolver.Resources: its own contract gives the keys only; the values are in `Resolver.ResourcesValues`.
- Interfaces.MatchNeighbors: states the bounds and the first-candidate rule only; the full behaviour is in `Interfaces.MatchNeighborsSpec` and `Interfaces.MatchNeighborsFaulty`.
- Patterns.MatchFrom: states the empty case and the variables only; claiming is in `Patterns.ClaimsSpec` and `Patterns.MatchClaimsAll`, and the no-device verdict is in `Patterns.NoneDeviceVerdict` and `Patterns.NoneDeviceStops`.
- Topology.MatchCandidates: its own contract gives the sublist and the kept variables only; which patterns match and the variables in force at each turn are in `Topology.MatchCandidatesThreaded` and `Topology.MatchCandidatesRaised`.
- Topology.MatchTopology: its own contract gives the frame and the sublist only; the full result is in `Topology.MatchTopologyThreaded` and, when a pattern raises, `Topology.MatchCandidatesRaised`.

## Findings

| source | as written | input that shows it | evidently intended | confidence | as-written member | corrected member |
|---|---|---|---|---|---|---|
| ztpserver/topology.py:196 | `if match:` treats a found key that is falsy (the empty string) as not found and allocates again | pool `{"": None, "a": None}`, node MAC `m`, allocated twice: the first call gives `""`, the second gives `"a"`, and `m` then holds both keys | `if match is not None:`, so a node keeps the key it holds; allocation is then idempotent and keeps every MAC on one key (`Resources.AllocateIdempotent`, `Resources.AllocateKeepsUnique`) | not executed; medium (needs an empty-string key in a pool file) | Resources.EmptyKeyAllocatedTwice | Resources.AllocateChecked |

=== FILE: base.dfy ===
/** Failure-compatible wrappers shared by every module of the model, and the
    closed set of exception kinds the modelled Python code can raise. */
module Base {

  /** `None` or a present value; used for Python's `None`-able values. */
  datatype Option<+T> = None | Some(value: T)

  /** The outcome of an operation that may raise. Usable with `:-`. */
  datatype Result<+T, +E> = Ok(value: T) | Err(error: E) {

    predicate IsFailure() {
      Err?
    }

    function PropagateFailure<U>(): Result<U, E>
      requires Err?
    {
      Err(error)
    }

    function Extract(): T
      requires Ok?
    {
      value
    }
  }

  /** The Python exceptions that reach the modelled code's callers or are
      caught by it. */
  datatype Error =
    | TypeError       // `Topology.add_pattern` catches it and skips the entry
    | ValueError      // a malformed range, port or device:port text
    | AttributeError  // a function name that names no matching or pool method
    | ResourcesError  // the pool has no unallocated key
    | RegexError      // `re.error`: a `regex(...)` argument that does not compile
}

=== FILE: functions.dfy ===
/** The `Functions` class (the named predicates usable in a device
    specifier) and `FUNC_RE`, the parser of `name('arg')` call syntax shared
    by device specifiers and resource attributes. */
module Functions {
  import opened Base
  import opened Text

  /** The regular-expression engine behind `re.match(pattern, value)`,
      which callers supply: whether a pattern compiles (`re.match` raises
      `re.error` before looking at the value when it does not), and whether
      a compiled pattern matches at the start of a value. */
  datatype RegexEngine = RegexEngine(compiles: string -> bool, matches: (string, string) -> bool)

  /** The four classmethods of `Functions`. */
  datatype FunctionName = Exact | Regex | Includes | Excludes

  /** `getattr(Functions, name)`: only the four matching functions are
      known; any other name raises. Attributes `Functions` inherits from
      `object` are treated as unknown names. */
  function LookupFunction(name: string): (f: Option<FunctionName>)
    ensures f.Some? <==> name in {"exact", "regex", "includes", "excludes"}
  {
    if name == "exact" then Some(Exact)
    else if name == "regex" then Some(Regex)
    else if name == "includes" then Some(Includes)
    else if name == "excludes" then Some(Excludes)
    else None
  }

  /** `Functions.regex` on a pattern the engine cannot compile. */
  predicate Raises(f: FunctionName, arg: string, regex: RegexEngine) {
    f == Regex && !regex.compiles(arg)
  }

  /** `Functions.<f>(arg, value)`. Only `regex` raises, and whether it does
      depends on the argument alone, never on the value. */
  function Apply(f: FunctionName, arg: string, value: string, regex: RegexEngine): (r: Result<bool, Error>)
    ensures r.Err? <==> Raises(f, arg, regex)
    ensures r.Err? ==> r.error == RegexError
    ensures f == Exact ==> r == Ok(arg == value)
    ensures f == Regex && regex.compiles(arg) ==> r == Ok(regex.matches(arg, value))
  {
    match f
    case Exact => Ok(arg == value)
    case Regex => if regex.compiles(arg) then Ok(regex.matches(arg, value)) else Err(RegexError)
    case Includes => Ok(IsSubstring(arg, value))
    case Excludes => Ok(!IsSubstring(arg, value))
  }

  /** `includes` and `excludes` never raise and disagree on every argument
      and value, and `includes` is substring occurrence. */
  lemma IncludesExcludesComplement(arg: string, value: string, regex: RegexEngine)
    ensures Apply(Includes, arg, value, regex).Ok? && Apply(Excludes, arg, value, regex).Ok?
    ensures Apply(Excludes, arg, value, regex).value == !Apply(Includes, arg, value, regex).value
    ensures Apply(Includes, arg, value, regex).value <==> exists i :: OccursAt(arg, value, i)
  {
    IsSubstringAt(arg, value);
  }

  /** The two groups `FUNC_RE` captures. */
  datatype Call = Call(name: string, arg: string)

  /** The character class `[\'|\"]` of `FUNC_RE`: it admits `|` too. */
  predicate IsQuote(c: char) {
    c == '\'' || c == '|' || c == '"'
  }

  /** Length of the leading `\w` run. */
  function WordRun(s: string): (n: nat)
    ensures n <= |s|
    ensures forall i :: 0 <= i < n ==> IsWordChar(s[i])
    ensures n < |s| ==> !IsWordChar(s[n])
    decreases |s|
  {
    if |s| == 0 || !IsWordChar(s[0]) then 0 else 1 + WordRun(s[1..])
  }

  /** Length of the leading `\S` run. */
  function NonSpaceRun(s: string): (n: nat)
    ensures n <= |s|
    ensures forall i :: 0 <= i < n ==> !IsSpace(s[i])
    ensures n < |s| ==> IsSpace(s[n])
    decreases |s|
  {
    if |s| == 0 || IsSpace(s[0]) then 0 else 1 + NonSpaceRun(s[1..])
  }

  /** The lookahead `(?=\(\S+\))`, applied to the text after the `(`: one or
      more non-space characters and then a `)`. */
  predicate CloseAhead(rest: string) {
    var m := NonSpaceRun(rest);
    m >= 2 && ')' in rest[1..m]
  }

  /** The lazy `(?P<arg>.+?)[\'|\"]\)` applied to `body`, trying argument
      lengths from `i` upward: the first length whose argument has no line
      break and is followed by a quote-class character and `)`. */
  function ArgEnd(body: string, i: nat): (r: Option<nat>)
    requires 1 <= i
    ensures r.Some? ==> i <= r.value && r.value + 1 < |body|
    ensures r.Some? ==> IsQuote(body[r.value]) && body[r.value + 1] == ')'
    decreases |body| - i
  {
    if i + 1 >= |body| || body[i - 1] == '\n' then None
    else if IsQuote(body[i]) && body[i + 1] == ')' then Some(i)
    else ArgEnd(body, i + 1)
  }

  /** `FUNC_RE.match(s)`: a call `name('arg')` at the start of `s`. */
  function ParseCall(s: string): (c: Option<Call>)
    ensures c.Some? ==> |c.value.name| > 0 && forall i :: 0 <= i < |c.value.name| ==> IsWordChar(c.value.name[i])
    ensures c.Some? ==> |c.value.arg| > 0 && StartsWith(s, c.value.name + "(")
  {
    var n := WordRun(s);
    if n == 0 || n == |s| || s[n] != '(' then None
    else
      var rest := s[n + 1..];
      if !CloseAhead(rest) || !IsQuote(rest[0]) then None
      else
        match ArgEnd(rest[1..], 1)
        case None => None
        case Some(i) =>
          assert s[..n + 1] == s[..n] + "(";
          Some(Call(s[..n], rest[1..][..i]))
  }

  /** Only a text containing `(` parses as a call. */
  lemma CallHasParen(s: string)
    ensures ParseCall(s).Some? ==> '(' in s
  {
    if ParseCall(s).Some? {
      var c := ParseCall(s).value;
      assert s[|c.name|] == '(';
    }
  }

  /** `name('arg')` as an operator writes it. */
  function Render(name: string, quote: char, arg: string): string {
    name + "(" + [quote] + arg + [quote] + ")"
  }

  /** An argument `FUNC_RE` captures whole when rendered: non-empty, with no
      whitespace and no quote-class character. */
  predicate PlainArg(arg: string) {
    |arg| > 0 && forall i :: 0 <= i < |arg| ==> !IsSpace(arg[i]) && !IsQuote(arg[i])
  }

  predicate WordName(name: string) {
    |name| > 0 && forall i :: 0 <= i < |name| ==> IsWordChar(name[i])
  }

  lemma {:induction false} WordRunPrefix(w: string, t: string)
    requires forall i :: 0 <= i < |w| ==> IsWordChar(w[i])
    requires |t| > 0 && !IsWordChar(t[0])
    ensures WordRun(w + t) == |w|
    decreases |w|
  {
    if |w| == 0 {
      assert w + t == t;
    } else {
      assert (w + t)[1..] == w[1..] + t;
      WordRunPrefix(w[1..], t);
    }
  }

  lemma {:induction false} NonSpaceRunAtLeast(s: string, k: nat)
    requires k <= |s|
    requires forall i :: 0 <= i < k ==> !IsSpace(s[i])
    ensures NonSpaceRun(s) >= k
    decreases k
  {
    if k > 0 {
      NonSpaceRunAtLeast(s[1..], k - 1);
    }
  }

  lemma {:induction false} ArgEndFinds(arg: string, q: char, tail: string, i: nat)
    requires PlainArg(arg) && IsQuote(q)
    requires 1 <= i <= |arg|
    ensures ArgEnd(arg + [q] + ")" + tail, i) == Some(|arg|)
    decreases |arg| - i
  {
    var body := arg + [q] + ")" + tail;
    assert body[i - 1] == arg[i - 1];
    if i < |arg| {
      assert body[i] == arg[i];
      ArgEndFinds(arg, q, tail, i + 1);
    } else {
      assert body[i] == q && body[i + 1] == ')';
    }
  }

  lemma CloseAheadRendered(q: char, arg: string, tail: string)
    requires PlainArg(arg) && IsQuote(q)
    ensures CloseAhead([q] + arg + [q] + ")" + tail)
  {
    var rest := [q] + arg + [q] + ")" + tail;
    var k := |arg| + 3;
    forall i | 0 <= i < k
      ensures !IsSpace(rest[i])
    {
      if 1 <= i <= |arg| {
        assert rest[i] == arg[i - 1];
      }
    }
    NonSpaceRunAtLeast(rest, k);
    assert rest[1..NonSpaceRun(rest)][|arg| + 1] == ')';
  }

  lemma RenderShape(name: string, q: char, arg: string, tail: string)
    requires WordName(name)
    ensures var s := Render(name, q, arg) + tail;
      && WordRun(s) == |name| && |name| < |s| && s[|name|] == '('
      && s[|name| + 1..] == [q] + arg + [q] + ")" + tail
      && s[..|name|] == name
  {
    var s := Render(name, q, arg) + tail;
    var t := "(" + [q] + arg + [q] + ")" + tail;
    assert s == name + t;
    WordRunPrefix(name, t);
  }

  /** Rendering a call and parsing it back gives the same name and argument,
      whatever text follows the call. */
  lemma ParseCallRender(name: string, q: char, arg: string, tail: string)
    requires WordName(name) && PlainArg(arg)
    requires q == '\'' || q == '"'
    ensures ParseCall(Render(name, q, arg) + tail) == Some(Call(name, arg))
  {
    var s := Render(name, q, arg) + tail;
    RenderShape(name, q, arg, tail);
    var rest := s[|name| + 1..];
    CloseAheadRendered(q, arg, tail);
    assert rest[1..] == arg + [q] + ")" + tail;
    ArgEndFinds(arg, q, tail, 1);
    assert rest[1..][..|arg|] == arg;
  }
}

=== FILE: interfaces.dfy ===
/** `InterfacePattern`: one line of a pattern (a local interface or range,
    the expected remote device and port, informational tags) and the
    algorithm that matches it against a neighbour table. */
module Interfaces {
  import opened Base
  import opened Text
  import opened Ranges
  import opened Functions
  import opened Neighbors

  /** Informational labels: a list from a mapping entry, or the text after
      the second colon of a `device:port:tags` entry. */
  datatype Tags = TagList(items: seq<string>) | TagText(text: string)

  /** `tags or list()`: a missing or falsy value becomes the empty list. */
  function TagsOrEmpty(tags: Option<Tags>): (t: Tags)
    ensures t == TagList([]) || tags == Some(t)
    ensures tags == None ==> t == TagList([])
  {
    match tags
    case None => TagList([])
    case Some(t) => if t == TagText("") then TagList([]) else t
  }

  /** `interfaces` and `ports` are the expansions `range` computed from
      `interface` and `port` when the pattern was built. */
  datatype InterfacePattern = InterfacePattern(
    interface: string,
    interfaces: seq<string>,
    device: Option<string>,
    port: Option<string>,
    ports: seq<string>,
    tags: Tags)

  predicate WellFormed(ip: InterfacePattern) {
    Range(Some(ip.interface)) == Ok(ip.interfaces) && Range(ip.port) == Ok(ip.ports)
  }

  /** `InterfacePattern(interface, device, port, tags)`: raises whatever
      `range` raises on the interface or the port. */
  function NewInterfacePattern(interface: string, device: Option<string>, port: Option<string>,
                               tags: Option<Tags>): (r: Result<InterfacePattern, Error>)
    ensures r.Ok? <==> Range(Some(interface)).Ok? && Range(port).Ok?
    ensures r.Ok? ==> WellFormed(r.value)
    ensures r.Ok? ==> r.value.interface == interface && r.value.device == device && r.value.port == port
    ensures r.Ok? ==> r.value.tags == TagsOrEmpty(tags)
  {
    var interfaces :- Range(Some(interface));
    var ports :- Range(port);
    Ok(InterfacePattern(interface, interfaces, device, port, ports, TagsOrEmpty(tags)))
  }

  /** The mapping `InterfacePattern.serialize` returns: `device`, then
      `port` (left out for a `None` device: the outer `None`), and `tags`,
      which is always present. */
  datatype Serialized = Serialized(device: string, port: Option<Option<string>>, tags: Tags)

  /** `InterfacePattern.serialize`. */
  function Serialize(ip: InterfacePattern): (s: Serialized)
    ensures ip.device == None ==> s.device == "none" && s.port == None
    ensures ip.device.Some? ==> s.device == ip.device.value && s.port == Some(ip.port)
    ensures s.tags == ip.tags
  {
    match ip.device
    case None => Serialized("none", None, ip.tags)
    case Some(d) => Serialized(d, Some(ip.port), ip.tags)
  }

  /** What a device specifier resolves to at match time, with the function
      name already looked up: a closed dispatch table instead of `getattr`. */
  datatype Matcher = Never | AnyDevice | Applies(fn: FunctionName, arg: string)

  /** `variables.get(d) or d`: an absent or empty-string variable leaves the
      raw specifier in place. */
  function Substituted(d: string, vars: map<string, string>): string {
    if d in vars && vars[d] != "" then vars[d] else d
  }

  /** The device half of `match_device`, before any observed device is
      looked at. */
  function DeviceMatcher(device: Option<string>, vars: map<string, string>): Result<Matcher, Error> {
    match device
    case None => Ok(Never)
    case Some(d) =>
      if d == "any" then Ok(AnyDevice)
      else
        var pattern := Substituted(d, vars);
        match ParseCall(pattern)
        case None => Ok(Applies(Exact, pattern))
        case Some(c) =>
          match LookupFunction(c.name)
          case None => Err(AttributeError)
          case Some(f) => Ok(Applies(f, c.arg))
  }

  function Accepts(m: Matcher, observed: string, regex: RegexEngine): Result<bool, Error> {
    match m
    case Never => Ok(false)
    case AnyDevice => Ok(true)
    case Applies(f, arg) => Apply(f, arg, observed, regex)
  }

  /** The exception every call of `match_device` raises, whatever device is
      observed: `AttributeError` for a function `Functions` lacks, `re.error`
      for a `regex` argument that does not compile; `None` when it raises
      nothing. */
  function DeviceFault(ip: InterfacePattern, vars: map<string, string>, regex: RegexEngine): Option<Error> {
    match DeviceMatcher(ip.device, vars)
    case Err(e) => Some(e)
    case Ok(m) => if m.Applies? && Raises(m.fn, m.arg, regex) then Some(RegexError) else None
  }

  predicate Faulty(ip: InterfacePattern, vars: map<string, string>, regex: RegexEngine) {
    DeviceFault(ip, vars, regex).Some?
  }

  /** `InterfacePattern.match_device(observed, variables)`. Whether it
      raises, and what, does not depend on the observed device. */
  function MatchDevice(ip: InterfacePattern, observed: string, vars: map<string, string>,
                       regex: RegexEngine): (r: Result<bool, Error>)
    ensures ip.device == None ==> r == Ok(false)
    ensures ip.device == Some("any") ==> r == Ok(true)
    ensures r.Err? <==> Faulty(ip, vars, regex)
    ensures r.Err? ==> DeviceFault(ip, vars, regex) == Some(r.error)
  {
    var m :- DeviceMatcher(ip.device, vars);
    Accepts(m, observed, regex)
  }

  /** A variable whose value is the empty string is ignored: matching
      behaves as if it were not defined. */
  lemma FalsyVariableIgnored(ip: InterfacePattern, observed: string, vars: map<string, string>,
                             name: string, regex: RegexEngine)
    requires name in vars && vars[name] == ""
    ensures MatchDevice(ip, observed, vars, regex) == MatchDevice(ip, observed, vars - {name}, regex)
  {
    if ip.device.Some? {
      SubstitutedSame(ip.device.value, vars, name);
    }
  }

  lemma SubstitutedSame(d: string, vars: map<string, string>, name: string)
    requires name in vars && vars[name] == ""
    ensures Substituted(d, vars) == Substituted(d, vars - {name})
  {
  }

  /** A specifier naming a variable with a non-empty, call-free value
      compares the observed device with that value. */
  lemma VariableSubstituted(ip: InterfacePattern, observed: string, vars: map<string, string>,
                            regex: RegexEngine)
    requires ip.device.Some? && ip.device.value != "any"
    requires ip.device.value in vars && vars[ip.device.value] != ""
    requires '(' !in vars[ip.device.value]
    ensures MatchDevice(ip, observed, vars, regex) == Ok(vars[ip.device.value] == observed)
  {
    CallHasParen(vars[ip.device.value]);
  }

  /** The matcher a rendered call resolves to: the looked-up function and
      the argument, or `AttributeError` for an unknown name. */
  lemma DispatchMatcher(name: string, q: char, arg: string, vars: map<string, string>)
    requires WordName(name) && PlainArg(arg) && (q == '\'' || q == '"')
    requires Render(name, q, arg) !in vars
    ensures DeviceMatcher(Some(Render(name, q, arg)), vars) ==
              match LookupFunction(name)
              case None => Err(AttributeError)
              case Some(f) => Ok(Applies(f, arg))
  {
    ParseCallRender(name, q, arg, "");
    var s := Render(name, q, arg);
    assert s + "" == s;
    assert s != "any" by {
      assert s[|name|] == '(';
    }
  }

  /** A specifier written `name('arg')` dispatches on `name`: the four
      functions of `Functions` apply to the argument and the observed
      device (`regex` raising `re.error` on an argument that does not
      compile), any other name raises. */
  lemma DispatchByName(ip: InterfacePattern, name: string, q: char, arg: string, observed: string,
                       vars: map<string, string>, regex: RegexEngine)
    requires WordName(name) && PlainArg(arg) && (q == '\'' || q == '"')
    requires ip.device == Some(Render(name, q, arg))
    requires Render(name, q, arg) !in vars
    ensures name == "exact" ==> MatchDevice(ip, observed, vars, regex) == Ok(arg == observed)
    ensures name == "regex" ==>
              MatchDevice(ip, observed, vars, regex) ==
                (if regex.compiles(arg) then Ok(regex.matches(arg, observed)) else Err(RegexError))
    ensures name == "includes" ==> MatchDevice(ip, observed, vars, regex) == Ok(IsSubstring(arg, observed))
    ensures name == "excludes" ==> MatchDevice(ip, observed, vars, regex) == Ok(!IsSubstring(arg, observed))
    ensures name !in {"exact", "regex", "includes", "excludes"} ==>
              MatchDevice(ip, observed, vars, regex) == Err(AttributeError)
  {
    DispatchDevice(ip, name, q, arg, observed, vars, regex);
  }

  /** `match_device` on a rendered call, in terms of the looked-up function. */
  lemma DispatchDevice(ip: InterfacePattern, name: string, q: char, arg: string, observed: string,
                       vars: map<string, string>, regex: RegexEngine)
    requires WordName(name) && PlainArg(arg) && (q == '\'' || q == '"')
    requires ip.device == Some(Render(name, q, arg))
    requires Render(name, q, arg) !in vars
    ensures MatchDevice(ip, observed, vars, regex) ==
              match LookupFunction(name)
              case None => Err(AttributeError)
              case Some(f) => Apply(f, arg, observed, regex)
  {
    DispatchMatcher(name, q, arg, vars);
  }

  /** `includes('x')` and `excludes('x')` accept complementary sets of
      devices. */
  lemma IncludesExcludesDevices(inc: InterfacePattern, exc: InterfacePattern, arg: string, observed: string,
                                vars: map<string, string>, regex: RegexEngine)
    requires PlainArg(arg)
    requires inc.device == Some(Render("includes", '\'', arg)) && Render("includes", '\'', arg) !in vars
    requires exc.device == Some(Render("excludes", '\'', arg)) && Render("excludes", '\'', arg) !in vars
    ensures MatchDevice(inc, observed, vars, regex).Ok? && MatchDevice(exc, observed, vars, regex).Ok?
    ensures MatchDevice(exc, observed, vars, regex).value == !MatchDevice(inc, observed, vars, regex).value
  {
    assert WordName("includes") && WordName("excludes");
    DispatchByName(inc, "includes", '\'', arg, observed, vars, regex);
    DispatchByName(exc, "excludes", '\'', arg, observed, vars, regex);
  }

  /** `InterfacePattern.match_port(observed)`. */
  function MatchPort(ip: InterfacePattern, observed: string): (r: bool)
    ensures ip.port == Some("any") ==> r
    ensures ip.port == None && ip.device == None ==> !r
    ensures WellFormed(ip) && ip.port == None ==> (r <==> ip.device == Some("any"))
    ensures WellFormed(ip) && ip.port.Some? && !StartsWith(ip.port.value, Family) ==>
              (r <==> ip.port.value == "any" || observed == ip.port.value)
  {
    if (ip.port == None && ip.device == Some("any")) || ip.port == Some("any") then true
    else if ip.port == None && ip.device == None then false
    else observed in ip.ports
  }

  /** A port range `Ethernet<a>-<b>` accepts exactly the ports numbered from
      `a` to `b`. */
  lemma MatchPortSpan(ip: InterfacePattern, observed: string, a: nat, b: nat)
    requires WellFormed(ip) && ip.port == Some(Family + Dec(a) + "-" + Dec(b))
    ensures MatchPort(ip, observed) <==> exists i :: a <= i <= b && observed == Family + Dec(i)
  {
    RangeSpan(a, b);
    assert ip.ports == Span(a, b);
    assert ip.port != Some("any") by {
      assert (Family + Dec(a) + "-" + Dec(b))[..|Family|] == Family;
    }
    InSpan(observed, a, b);
  }

  lemma InSpan(observed: string, a: nat, b: nat)
    ensures observed in Span(a, b) <==> exists i :: a <= i <= b && observed == Family + Dec(i)
  {
    if observed in Span(a, b) {
      SpanOnly(observed, a, b);
    }
    if exists i :: a <= i <= b && observed == Family + Dec(i) {
      var i :| a <= i <= b && observed == Family + Dec(i);
      SpanHas(a, b, i);
    }
  }

  lemma SpanHas(a: nat, b: nat, i: nat)
    requires a <= i <= b
    ensures Family + Dec(i) in Span(a, b)
  {
    var span := Span(a, b);
    var k: nat := i - a;
    assert k < |span|;
    assert span[k] == Family + Dec(a + k);
  }

  lemma SpanOnly(observed: string, a: nat, b: nat)
    requires observed in Span(a, b)
    ensures exists i :: a <= i <= b && observed == Family + Dec(i)
  {
    var span := Span(a, b);
    var k :| 0 <= k < |span| && span[k] == observed;
    assert a <= b;
    var i := a + k;
    assert i <= b && observed == Family + Dec(i);
  }

  /** `[x for x in self.interfaces if x in neighbors()]`. */
  function Present(names: seq<string>, t: Table): (r: seq<string>)
    ensures |r| <= |names|
    ensures forall x :: x in r ==> x in Keys(t)
    decreases |names|
  {
    if |names| == 0 then []
    else (if names[0] in Keys(t) then [names[0]] else []) + Present(names[1..], t)
  }

  /** The filter keeps declared order: the names kept from a concatenation
      are those kept from each part, in turn, and a single name is kept
      exactly when it is a key of the table. */
  lemma {:induction false} PresentOrder(names: seq<string>, more: seq<string>, t: Table)
    ensures Present(names + more, t) == Present(names, t) + Present(more, t)
    ensures |names| == 1 ==> Present(names, t) == if names[0] in Keys(t) then names else []
    decreases |names|
  {
    if |names| == 0 {
      assert names + more == more;
    } else {
      var all := names + more;
      assert all[0] == names[0] && all[1..] == names[1..] + more;
      PresentOrder(names[1..], more, t);
      var head := if names[0] in Keys(t) then [names[0]] else [];
      var a := Present(names[1..], t);
      var b := Present(more, t);
      assert Present(all, t) == head + (a + b);
      assert Present(names, t) == head + a;
      assert head + (a + b) == (head + a) + b;
      if |names| == 1 {
        assert names[1..] == [];
        assert a == [];
      }
    }
  }

  /** The interfaces `match_neighbors` examines, in order: every key of the
      working table for the wildcard `any`, otherwise the declared expansion
      restricted to the keys present. */
  function Candidates(ip: InterfacePattern, t: Table): (cs: seq<string>)
    ensures forall x :: x in cs ==> x in Keys(t)
  {
    if ip.interface == "any" then Keys(t) else Present(ip.interfaces, t)
  }

  /** The wildcard examines every key of the table, in table order; a
      declared interface or range examines exactly the declared names that
      are keys of the table, in declared order. */
  lemma CandidatesSpec(ip: InterfacePattern, t: Table)
    ensures ip.interface == "any" ==> Candidates(ip, t) == Keys(t)
    ensures ip.interface != "any" ==> Candidates(ip, t) == Present(ip.interfaces, t)
    ensures ip.interface != "any" ==>
              forall x :: x in Candidates(ip, t) <==> x in ip.interfaces && x in Keys(t)
  {
    PresentMembers(ip.interfaces, t);
  }

  /** A name is kept exactly when it is declared and a key of the table. */
  lemma {:induction false} PresentMembers(names: seq<string>, t: Table)
    ensures forall x :: x in Present(names, t) <==> x in names && x in Keys(t)
    decreases |names|
  {
    if |names| > 0 {
      PresentMembers(names[1..], t);
      assert names == [names[0]] + names[1..];
    }
  }

  /** The inner loop of `match_neighbors`: whether some neighbour on one
      interface is accepted by both the device and the port specifier,
      stopping at the first that is. */
  function NeighborAccepted(ip: InterfacePattern, nbrs: seq<Neighbor>, vars: map<string, string>,
                            regex: RegexEngine): Result<bool, Error>
    decreases |nbrs|
  {
    if |nbrs| == 0 then Ok(false)
    else
      var device :- MatchDevice(ip, nbrs[0].device, vars, regex);
      if device && MatchPort(ip, nbrs[0].port) then Ok(true)
      else NeighborAccepted(ip, nbrs[1..], vars, regex)
  }

  /** The outer loop of `match_neighbors`: the candidates, in order, that
      have an accepted neighbour. */
  function ScanCandidates(ip: InterfacePattern, t: Table, cands: seq<string>, vars: map<string, string>,
                          regex: RegexEngine): (r: Result<seq<string>, Error>)
    ensures r.Ok? ==> |r.value| <= |cands|
    ensures r.Ok? ==> forall x :: x in r.value ==> x in cands
    decreases |cands|
  {
    if |cands| == 0 then Ok([])
    else
      var hit :- NeighborAccepted(ip, Get(t, cands[0]), vars, regex);
      var rest :- ScanCandidates(ip, t, cands[1..], vars, regex);
      Ok(if hit then [cands[0]] + rest else rest)
  }

  /** `InterfacePattern.match_neighbors(neighbors, variables)`: at most one
      interface, taken from the candidates. */
  function MatchNeighbors(ip: InterfacePattern, t: Table, vars: map<string, string>,
                          regex: RegexEngine): (r: Result<seq<string>, Error>)
    ensures r.Ok? ==> |r.value| <= 1
    ensures r.Ok? ==> forall x :: x in r.value ==> x in Candidates(ip, t) && x in Keys(t)
    ensures r.Ok? && |r.value| == 1 && ip.interface != "any" ==>
              |Candidates(ip, t)| > 0 && r.value[0] == Candidates(ip, t)[0]
  {
    var cands := Candidates(ip, t);
    var matches :- ScanCandidates(ip, t, cands, vars, regex);
    var kept := if matches != cands && ip.interface != "any" then [] else matches;
    Ok(if |kept| == 0 then [] else kept[..1])
  }

  /** A neighbour both specifiers accept. */
  predicate Accepting(ip: InterfacePattern, n: Neighbor, vars: map<string, string>, regex: RegexEngine) {
    MatchDevice(ip, n.device, vars, regex) == Ok(true) && MatchPort(ip, n.port)
  }

  predicate HasAccepting(ip: InterfacePattern, nbrs: seq<Neighbor>, vars: map<string, string>,
                         regex: RegexEngine) {
    exists j :: 0 <= j < |nbrs| && Accepting(ip, nbrs[j], vars, regex)
  }

  /** The elements of `xs`, in order, that satisfy `p`. */
  function Filter(xs: seq<string>, p: string -> bool): (r: seq<string>)
    ensures |r| <= |xs|
    decreases |xs|
  {
    if |xs| == 0 then [] else (if p(xs[0]) then [xs[0]] else []) + Filter(xs[1..], p)
  }

  /** Whether a candidate carries an accepting neighbour. */
  function AcceptsAt(ip: InterfacePattern, t: Table, vars: map<string, string>, regex: RegexEngine): string -> bool {
    x => HasAccepting(ip, Get(t, x), vars, regex)
  }

  /** Reference definition: the candidates, in order, that carry some
      accepting neighbour. */
  function AcceptedOf(ip: InterfacePattern, t: Table, cands: seq<string>, vars: map<string, string>,
                      regex: RegexEngine): seq<string>
  {
    Filter(cands, AcceptsAt(ip, t, vars, regex))
  }

  /** The neighbour scan answers whether an accepting neighbour exists; with
      a faulty specifier it raises as soon as there is a neighbour to test. */
  lemma {:induction false} NeighborAcceptedSpec(ip: InterfacePattern, nbrs: seq<Neighbor>,
                                                vars: map<string, string>, regex: RegexEngine)
    ensures !Faulty(ip, vars, regex) ==> NeighborAccepted(ip, nbrs, vars, regex) == Ok(HasAccepting(ip, nbrs, vars, regex))
    ensures Faulty(ip, vars, regex) ==>
              NeighborAccepted(ip, nbrs, vars, regex) ==
                (if |nbrs| == 0 then Ok(false) else Err(DeviceFault(ip, vars, regex).value))
    decreases |nbrs|
  {
    if |nbrs| > 0 {
      NeighborAcceptedSpec(ip, nbrs[1..], vars, regex);
      if !Faulty(ip, vars, regex) {
        if !Accepting(ip, nbrs[0], vars, regex) {
          assert HasAccepting(ip, nbrs, vars, regex) <==> HasAccepting(ip, nbrs[1..], vars, regex) by {
            if HasAccepting(ip, nbrs[1..], vars, regex) {
              var j :| 0 <= j < |nbrs[1..]| && Accepting(ip, nbrs[1..][j], vars, regex);
              assert Accepting(ip, nbrs[j + 1], vars, regex);
            }
            if HasAccepting(ip, nbrs, vars, regex) {
              var j :| 0 <= j < |nbrs| && Accepting(ip, nbrs[j], vars, regex);
              assert j > 0 && nbrs[1..][j - 1] == nbrs[j];
            }
          }
        }
      }
    }
  }

  /** Without a faulty specifier the scan yields the reference sublist. */
  lemma {:induction false} ScanSpec(ip: InterfacePattern, t: Table, cands: seq<string>,
                                    vars: map<string, string>, regex: RegexEngine)
    requires !Faulty(ip, vars, regex)
    ensures ScanCandidates(ip, t, cands, vars, regex) == Ok(AcceptedOf(ip, t, cands, vars, regex))
    decreases |cands|
  {
    if |cands| > 0 {
      NeighborAcceptedSpec(ip, Get(t, cands[0]), vars, regex);
      ScanSpec(ip, t, cands[1..], vars, regex);
      var rest := AcceptedOf(ip, t, cands[1..], vars, regex);
      assert AcceptedOf(ip, t, cands, vars, regex) ==
             (if HasAccepting(ip, Get(t, cands[0]), vars, regex) then [cands[0]] else []) + rest;
      assert [] + rest == rest;
    }
  }

  predicate SomeNeighbors(t: Table, cands: seq<string>) {
    exists i :: 0 <= i < |cands| && |Get(t, cands[i])| > 0
  }

  /** A faulty specifier raises exactly when some candidate has a neighbour
      to test, and otherwise finds nothing. */
  lemma {:induction false} ScanFaulty(ip: InterfacePattern, t: Table, cands: seq<string>,
                                      vars: map<string, string>, regex: RegexEngine)
    requires Faulty(ip, vars, regex)
    ensures ScanCandidates(ip, t, cands, vars, regex) ==
              if SomeNeighbors(t, cands) then Err(DeviceFault(ip, vars, regex).value) else Ok([])
    decreases |cands|
  {
    if |cands| > 0 {
      NeighborAcceptedSpec(ip, Get(t, cands[0]), vars, regex);
      ScanFaulty(ip, t, cands[1..], vars, regex);
      assert SomeNeighbors(t, cands) <==> |Get(t, cands[0])| > 0 || SomeNeighbors(t, cands[1..]) by {
        if SomeNeighbors(t, cands[1..]) {
          var i :| 0 <= i < |cands[1..]| && |Get(t, cands[1..][i])| > 0;
          assert cands[i + 1] == cands[1..][i];
        }
        if SomeNeighbors(t, cands) {
          var i :| 0 <= i < |cands| && |Get(t, cands[i])| > 0;
          if i > 0 {
            assert cands[1..][i - 1] == cands[i];
          }
        }
      }
    }
  }

  /** The filter keeps every element exactly when each satisfies `p`. */
  lemma {:induction false} FilterAll(xs: seq<string>, p: string -> bool)
    ensures Filter(xs, p) == xs <==> forall i :: 0 <= i < |xs| ==> p(xs[i])
    decreases |xs|
  {
    if |xs| > 0 {
      FilterAll(xs[1..], p);
      var rest := Filter(xs[1..], p);
      if p(xs[0]) {
        assert [xs[0]] + rest == xs <==> rest == xs[1..] by {
          if [xs[0]] + rest == xs {
            assert rest == ([xs[0]] + rest)[1..];
          }
          if rest == xs[1..] {
            assert [xs[0]] + xs[1..] == xs;
          }
        }
        if forall i :: 0 <= i < |xs[1..]| ==> p(xs[1..][i]) {
          forall i | 0 <= i < |xs| ensures p(xs[i]) {
            if i > 0 {
              assert xs[i] == xs[1..][i - 1];
            }
          }
        }
        if forall i :: 0 <= i < |xs| ==> p(xs[i]) {
          forall i | 0 <= i < |xs[1..]| ensures p(xs[1..][i]) {
            assert xs[1..][i] == xs[i + 1];
          }
        }
      } else {
        assert Filter(xs, p) == [] + rest;
        assert |rest| < |xs|;
      }
    }
  }

  /** The filter keeps something exactly when some element satisfies `p`. */
  lemma {:induction false} FilterNonEmpty(xs: seq<string>, p: string -> bool)
    ensures |Filter(xs, p)| > 0 <==> exists i :: 0 <= i < |xs| && p(xs[i])
    decreases |xs|
  {
    if |xs| > 0 && !p(xs[0]) {
      FilterNonEmpty(xs[1..], p);
      assert Filter(xs, p) == [] + Filter(xs[1..], p);
      if exists i :: 0 <= i < |xs| && p(xs[i]) {
        var i :| 0 <= i < |xs| && p(xs[i]);
        assert xs[1..][i - 1] == xs[i];
      }
      if exists i :: 0 <= i < |xs[1..]| && p(xs[1..][i]) {
        var i :| 0 <= i < |xs[1..]| && p(xs[1..][i]);
        assert xs[1..][i] == xs[i + 1];
      }
    }
  }

  /** The first element kept is the first element satisfying `p`. */
  lemma {:induction false} FilterHead(xs: seq<string>, p: string -> bool, i: nat)
    requires i < |xs| && p(xs[i])
    requires forall j :: 0 <= j < i ==> !p(xs[j])
    ensures |Filter(xs, p)| > 0 && Filter(xs, p)[0] == xs[i]
    decreases i
  {
    if i > 0 {
      assert !p(xs[0]);
      assert Filter(xs, p) == [] + Filter(xs[1..], p);
      forall j | 0 <= j < i - 1 ensures !p(xs[1..][j]) {
        assert xs[1..][j] == xs[j + 1];
      }
      assert xs[1..][i - 1] == xs[i];
      FilterHead(xs[1..], p, i - 1);
    }
  }

  /** Some element satisfies `p`, so there is a first one. */
  lemma {:induction false} FirstWith(xs: seq<string>, p: string -> bool, k: nat) returns (i: nat)
    requires k < |xs| && p(xs[k])
    ensures i <= k && p(xs[i])
    ensures forall j :: 0 <= j < i ==> !p(xs[j])
    decreases k
  {
    if forall j :: 0 <= j < k ==> !p(xs[j]) {
      i := k;
    } else {
      var j :| 0 <= j < k && p(xs[j]);
      i := FirstWith(xs, p, j);
    }
  }

  /** Every candidate has an accepting neighbour. */
  predicate AllAccepting(ip: InterfacePattern, t: Table, cands: seq<string>, vars: map<string, string>,
                         regex: RegexEngine) {
    forall i :: 0 <= i < |cands| ==> HasAccepting(ip, Get(t, cands[i]), vars, regex)
  }

  /** No candidate before position `i` has an accepting neighbour. */
  predicate NoneBefore(ip: InterfacePattern, t: Table, cands: seq<string>, i: int,
                       vars: map<string, string>, regex: RegexEngine)
    requires i <= |cands|
  {
    forall j :: 0 <= j < i ==> !HasAccepting(ip, Get(t, cands[j]), vars, regex)
  }

  /** The reference sublist keeps every candidate exactly when each of them
      has an accepting neighbour. */
  lemma AcceptedOfAll(ip: InterfacePattern, t: Table, cands: seq<string>,
                      vars: map<string, string>, regex: RegexEngine)
    ensures |AcceptedOf(ip, t, cands, vars, regex)| <= |cands|
    ensures AcceptedOf(ip, t, cands, vars, regex) == cands <==> AllAccepting(ip, t, cands, vars, regex)
  {
    FilterAll(cands, AcceptsAt(ip, t, vars, regex));
  }

  /** The reference sublist is non-empty exactly when some candidate has an
      accepting neighbour. */
  lemma AcceptedOfNonEmpty(ip: InterfacePattern, t: Table, cands: seq<string>,
                           vars: map<string, string>, regex: RegexEngine)
    ensures |AcceptedOf(ip, t, cands, vars, regex)| > 0 <==>
              exists i :: 0 <= i < |cands| && HasAccepting(ip, Get(t, cands[i]), vars, regex)
  {
    var p := AcceptsAt(ip, t, vars, regex);
    FilterNonEmpty(cands, p);
    assert (exists i :: 0 <= i < |cands| && p(cands[i])) <==>
           (exists i :: 0 <= i < |cands| && HasAccepting(ip, Get(t, cands[i]), vars, regex));
  }

  /** The acceptance rule of `match_neighbors` for a specifier that does not
      raise. A declared interface or range matches only if every declared
      interface present in the table has an accepting neighbour, and then
      yields the first of them; the wildcard `any` yields the first table
      interface with an accepting neighbour. */
  lemma MatchNeighborsSpec(ip: InterfacePattern, t: Table, vars: map<string, string>, regex: RegexEngine)
    requires !Faulty(ip, vars, regex)
    ensures var r := MatchNeighbors(ip, t, vars, regex);
            var cands := Candidates(ip, t);
      && r.Ok?
      && (ip.interface != "any" ==>
            (|r.value| == 1 <==>
               |cands| > 0 && forall i :: 0 <= i < |cands| ==> HasAccepting(ip, Get(t, cands[i]), vars, regex)))
      && (ip.interface != "any" && |r.value| == 1 ==> r.value[0] == cands[0])
      && (ip.interface == "any" ==>
            (|r.value| == 1 <==> exists i :: 0 <= i < |cands| && HasAccepting(ip, Get(t, cands[i]), vars, regex)))
      && (|r.value| == 1 ==>
            exists i :: 0 <= i < |cands| && r.value[0] == cands[i]
              && HasAccepting(ip, Get(t, cands[i]), vars, regex)
              && NoneBefore(ip, t, cands, i, vars, regex))
  {
    var cands := Candidates(ip, t);
    var acc := AcceptedOf(ip, t, cands, vars, regex);
    MatchNeighborsShape(ip, t, vars, regex);
    AcceptedOfAll(ip, t, cands, vars, regex);
    AcceptedOfNonEmpty(ip, t, cands, vars, regex);
    if ip.interface != "any" {
      DeclaredFirst(ip, t, cands, vars, regex);
    }
    if |acc| > 0 {
      AcceptedFirst(ip, t, cands, vars, regex);
    }
  }

  /** With a specifier that does not raise, `match_neighbors` keeps the
      first accepted candidate, unless a declared interface set is not
      accepted in full. */
  lemma MatchNeighborsShape(ip: InterfacePattern, t: Table, vars: map<string, string>, regex: RegexEngine)
    requires !Faulty(ip, vars, regex)
    ensures var cands := Candidates(ip, t);
            var acc := AcceptedOf(ip, t, cands, vars, regex);
      MatchNeighbors(ip, t, vars, regex) ==
        Ok(if (acc != cands && ip.interface != "any") || |acc| == 0 then [] else acc[..1])
  {
    ScanSpec(ip, t, Candidates(ip, t), vars, regex);
  }

  lemma DeclaredFirst(ip: InterfacePattern, t: Table, cands: seq<string>, vars: map<string, string>,
                      regex: RegexEngine)
    ensures AcceptedOf(ip, t, cands, vars, regex) == cands && |cands| > 0 ==>
              HasAccepting(ip, Get(t, cands[0]), vars, regex)
  {
    if AcceptedOf(ip, t, cands, vars, regex) == cands && |cands| > 0 {
      AcceptedOfAll(ip, t, cands, vars, regex);
    }
  }

  /** The head of a non-empty reference sublist is the first accepting
      candidate. */
  lemma AcceptedFirst(ip: InterfacePattern, t: Table, cands: seq<string>, vars: map<string, string>,
                      regex: RegexEngine)
    requires |AcceptedOf(ip, t, cands, vars, regex)| > 0
    ensures exists i :: 0 <= i < |cands| && AcceptedOf(ip, t, cands, vars, regex)[0] == cands[i]
              && HasAccepting(ip, Get(t, cands[i]), vars, regex)
              && NoneBefore(ip, t, cands, i, vars, regex)
  {
    var p := AcceptsAt(ip, t, vars, regex);
    FilterNonEmpty(cands, p);
    var k :| 0 <= k < |cands| && p(cands[k]);
    var i := FirstWith(cands, p, k);
    FilterHead(cands, p, i);
    assert NoneBefore(ip, t, cands, i, vars, regex) by {
      forall j | 0 <= j < i ensures !HasAccepting(ip, Get(t, cands[j]), vars, regex) {
        assert !p(cands[j]);
      }
    }
  }

  /** A faulty specifier raises exactly when some candidate interface has a
      neighbour to test, and otherwise matches nothing. */
  lemma MatchNeighborsFaulty(ip: InterfacePattern, t: Table, vars: map<string, string>, regex: RegexEngine)
    requires Faulty(ip, vars, regex)
    ensures var r := MatchNeighbors(ip, t, vars, regex);
      && (r.Err? <==> SomeNeighbors(t, Candidates(ip, t)))
      && (r.Ok? ==> r.value == [])
  {
    ScanFaulty(ip, t, Candidates(ip, t), vars, regex);
  }

  /** Whatever the specifier, an interface `match_neighbors` yields is in
      the table and carries an accepting neighbour. */
  lemma MatchNeighborsSound(ip: InterfacePattern, t: Table, vars: map<string, string>, regex: RegexEngine)
    ensures var r := MatchNeighbors(ip, t, vars, regex);
      r.Ok? && |r.value| == 1 ==> r.value[0] in Keys(t) && HasAccepting(ip, Get(t, r.value[0]), vars, regex)
  {
    if Faulty(ip, vars, regex) {
      MatchNeighborsFaulty(ip, t, vars, regex);
    } else {
      MatchNeighborsSpec(ip, t, vars, regex);
    }
  }
}

=== FILE: neighbors.dfy ===
/** `Node`: an observed device's identity and its neighbour table, an
    ordered map from local interface name to the `(device, port)` pairs seen
    on it, plus `create_node`'s MAC normalisation. */
module Neighbors {
  import opened Base

  /** `Node.Neighbor`. */
  datatype Neighbor = Neighbor(device: string, port: string)

  /** An `OrderedCollection` of interface name to neighbour list, as a
      sequence of entries in insertion order. */
  type Table = seq<(string, seq<Neighbor>)>

  /** `neighbors()`: the interface names in order. */
  function Keys(t: Table): (ks: seq<string>)
    ensures |ks| == |t|
    ensures forall i :: 0 <= i < |t| ==> ks[i] == t[i].0
    decreases |t|
  {
    if |t| == 0 then [] else [t[0].0] + Keys(t[1..])
  }

  predicate UniqueKeys(t: Table) {
    forall i, j :: 0 <= i < j < |t| ==> t[i].0 != t[j].0
  }

  /** `neighbors(k)` for a key that is present; the empty list otherwise. */
  function Get(t: Table, k: string): (v: seq<Neighbor>)
    ensures (exists i :: 0 <= i < |t| && t[i].0 == k && v == t[i].1) || (k !in Keys(t) && v == [])
    decreases |t|
  {
    if |t| == 0 then []
    else if t[0].0 == k then t[0].1
    else Get(t[1..], k)
  }

  /** `del neighbors[k]`. */
  function Remove(t: Table, k: string): (r: Table)
    ensures |r| <= |t|
    decreases |t|
  {
    if |t| == 0 then []
    else if t[0].0 == k then Remove(t[1..], k)
    else [t[0]] + Remove(t[1..], k)
  }

  lemma {:induction false} RemoveKeys(t: Table, k: string, x: string)
    ensures x in Keys(Remove(t, k)) <==> x in Keys(t) && x != k
    decreases |t|
  {
    if |t| > 0 {
      RemoveKeys(t[1..], k, x);
      assert Keys(t) == [t[0].0] + Keys(t[1..]);
      if t[0].0 != k {
        assert Keys(Remove(t, k)) == [t[0].0] + Keys(Remove(t[1..], k));
      }
    }
  }

  lemma {:induction false} RemoveGet(t: Table, k: string, x: string)
    requires x != k
    ensures Get(Remove(t, k), x) == Get(t, x)
    decreases |t|
  {
    if |t| > 0 {
      RemoveGet(t[1..], k, x);
    }
  }

  lemma {:induction false} RemoveUnique(t: Table, k: string)
    requires UniqueKeys(t)
    ensures UniqueKeys(Remove(t, k))
    decreases |t|
  {
    if |t| > 0 {
      RemoveUnique(t[1..], k);
      if t[0].0 != k {
        var rest := Remove(t[1..], k);
        forall j | 0 <= j < |rest|
          ensures rest[j].0 != t[0].0
        {
          assert rest[j].0 in Keys(rest);
          RemoveKeys(t[1..], k, rest[j].0);
          var i :| 0 <= i < |t[1..]| && t[1..][i].0 == rest[j].0;
          assert t[i + 1].0 == rest[j].0;
        }
      }
    }
  }

  /** Deleting a key removes exactly that key, keeps every other key's
      neighbours and keeps the keys distinct. */
  lemma RemoveSpec(t: Table, k: string)
    ensures forall x :: x in Keys(Remove(t, k)) <==> x in Keys(t) && x != k
    ensures forall x :: x != k ==> Get(Remove(t, k), x) == Get(t, x)
    ensures UniqueKeys(t) ==> UniqueKeys(Remove(t, k))
  {
    forall x
      ensures x in Keys(Remove(t, k)) <==> x in Keys(t) && x != k
    {
      RemoveKeys(t, k, x);
    }
    forall x | x != k
      ensures Get(Remove(t, k), x) == Get(t, x)
    {
      RemoveGet(t, k, x);
    }
    if UniqueKeys(t) {
      RemoveUnique(t, k);
    }
  }

  /** `neighbors[k] = v` on an `OrderedCollection`: an existing key keeps
      its position, a new one is appended. */
  function Put(t: Table, k: string, v: seq<Neighbor>): (r: Table)
    ensures |r| == |t| || r == t + [(k, v)]
    decreases |t|
  {
    if |t| == 0 then [(k, v)]
    else if t[0].0 == k then [(k, v)] + t[1..]
    else
      var rest := Put(t[1..], k, v);
      assert |rest| != |t[1..]| ==> [t[0]] + rest == t + [(k, v)];
      [t[0]] + rest
  }

  /** Assignment to a new key appends; the assigned key then reads back the
      new value and every other key is untouched. */
  lemma {:induction false} PutSpec(t: Table, k: string, v: seq<Neighbor>)
    ensures k !in Keys(t) ==> Put(t, k, v) == t + [(k, v)]
    ensures Get(Put(t, k, v), k) == v
    ensures forall x :: x != k ==> Get(Put(t, k, v), x) == Get(t, x)
    decreases |t|
  {
    if |t| > 0 {
      PutSpec(t[1..], k, v);
      assert Keys(t) == [t[0].0] + Keys(t[1..]);
    }
  }

  /** `Node.add_neighbors`: the report's interfaces assigned in order. */
  function AddNeighbors(t: Table, entries: Table): Table
    decreases |entries|
  {
    if |entries| == 0 then t else AddNeighbors(Put(t, entries[0].0, entries[0].1), entries[1..])
  }

  /** A report whose interface names are distinct (they are the keys of a
      mapping) becomes exactly that table. */
  lemma {:induction false} AddNeighborsDistinct(t: Table, entries: Table)
    requires UniqueKeys(t + entries)
    ensures AddNeighbors(t, entries) == t + entries
    decreases |entries|
  {
    if |entries| > 0 {
      var k := entries[0].0;
      forall i | 0 <= i < |t|
        ensures t[i].0 != k
      {
        assert (t + entries)[i].0 == t[i].0;
        assert (t + entries)[|t|].0 == k;
      }
      assert k !in Keys(t);
      PutSpec(t, k, entries[0].1);
      var t' := Put(t, k, entries[0].1);
      assert t' == t + [entries[0]];
      assert t' + entries[1..] == t + entries;
      AddNeighborsDistinct(t', entries[1..]);
    }
  }

  lemma AddNeighborsFresh(entries: Table)
    ensures UniqueKeys(entries) ==> AddNeighbors([], entries) == entries
  {
    if UniqueKeys(entries) {
      assert [] + entries == entries;
      AddNeighborsDistinct([], entries);
    }
  }

  /** `Node`: identity attributes, all optional, and the neighbour table. */
  datatype Node = Node(
    model: Option<string>,
    systemmac: Option<string>,
    serialnumber: Option<string>,
    version: Option<string>,
    neighbors: Table)

  /** `s.replace(':', '')`. */
  function StripColons(s: string): (r: string)
    ensures ':' !in r
    ensures |r| <= |s|
    decreases |s|
  {
    if |s| == 0 then ""
    else if s[0] == ':' then StripColons(s[1..])
    else [s[0]] + StripColons(s[1..])
  }

  /** Stripping leaves a text alone exactly when it has no colon, so a
      normalised identity is a fixed point of normalisation. */
  lemma {:induction false} StripColonsFixed(s: string)
    ensures StripColons(s) == s <==> ':' !in s
    ensures StripColons(StripColons(s)) == StripColons(s)
    decreases |s|
  {
    if |s| > 0 {
      StripColonsFixed(s[1..]);
      assert s == [s[0]] + s[1..];
      if s[0] != ':' {
        assert ':' in s <==> ':' in s[1..];
        assert StripColons(s)[1..] == StripColons(s[1..]);
      } else {
        assert ':' in s;
        assert |StripColons(s)| < |s| by { assert |StripColons(s[1..])| <= |s[1..]|; }
      }
    }
  }

  /** Every character that is not a colon keeps its number of occurrences. */
  lemma {:induction false} StripColonsKeeps(s: string, c: char)
    requires c != ':'
    ensures multiset(StripColons(s))[c] == multiset(s)[c]
    decreases |s|
  {
    if |s| > 0 {
      StripColonsKeeps(s[1..], c);
      assert s == [s[0]] + s[1..];
      assert multiset(s) == multiset{s[0]} + multiset(s[1..]);
    }
  }

  /** `create_node`: builds the node from a report and strips the colons
      from a present MAC. */
  function CreateNode(model: Option<string>, systemmac: Option<string>, serialnumber: Option<string>,
                      version: Option<string>, neighbors: Table): (n: Node)
    ensures systemmac == None <==> n.systemmac == None
    ensures n.systemmac.Some? ==> ':' !in n.systemmac.value
    ensures UniqueKeys(neighbors) ==> n.neighbors == neighbors
  {
    AddNeighborsFresh(neighbors);
    var mac := match systemmac
      case None => None
      case Some(m) => Some(StripColons(m));
    Node(model, mac, serialnumber, version, AddNeighbors([], neighbors))
  }
}

=== FILE: patterns.dfy ===
/** `Pattern`: a named list of interface patterns, how it is built from a
    document entry (`_parse_interface`, `add_interfaces`), how it is written
    back (`serialize`) and how it is matched against a node (`match_node`). */
module Patterns {
  import opened Base
  import opened Text
  import opened Ranges
  import opened Functions
  import opened Neighbors
  import opened Interfaces

  /** The `device:port[:tags]` split, `DEVICENAME_PARSER_RE` and then
      `ANYDEVICE_PARSER_RE`; the regular expressions are not modelled, so
      callers supply the split. `None` stands for both splits failing to
      produce exactly two halves (`ValueError`). */
  type ColonSplit = string -> Option<(string, string)>

  /** The value of one `{interface: spec}` entry: a text, a mapping with
      optional `device`, `port` and `tags`, or anything else. */
  datatype RawSpec =
    | SpecText(text: string)
    | SpecDict(device: Option<string>, port: Option<string>, tags: Option<Tags>)
    | SpecOther

  /** The `(interface, device, port, tags)` tuple `_parse_interface` returns. */
  datatype Parsed = Parsed(interface: string, device: Option<string>, port: Option<string>, tags: Option<Tags>)

  /** The pattern-level substitution: no `or` fallback here, so an
      empty-string value replaces the device too. */
  function PatternSubstitution(device: Option<string>, vars: map<string, string>): Option<string> {
    match device
    case None => None
    case Some(d) => if d != "any" && d in vars then Some(vars[d]) else device
  }

  /** `Pattern._parse_interface(interface, values)`. */
  function ParseInterface(interface: string, values: RawSpec, vars: map<string, string>,
                          split: ColonSplit): (r: Result<Parsed, Error>)
    ensures r.Ok? ==> r.value.interface == interface
    ensures (values == SpecText("any") || (values.SpecDict? && values.device == Some("any"))) ==>
              r == Ok(Parsed(interface, Some("any"), Some("any"), None))
    ensures values.SpecDict? && values.device != Some("any") && values.device != Some("none") ==> r == Err(TypeError)
    ensures values == SpecOther ==> r == Err(TypeError)
  {
    var (device, port, tags) := match values
      case SpecDict(d, p, t) => (d, p, t)
      case _ => (None, None, None);
    if values == SpecText("any") || device == Some("any") then
      Ok(Parsed(interface, Some("any"), Some("any"), None))
    else if values == SpecText("none") || device == Some("none") then
      Ok(Parsed(interface, None, None, None))
    else
      match values
      case SpecText(s) =>
        (match split(s)
         case None => Err(ValueError)
         case Some((d, p)) =>
           var pieces := SplitOn(p, ':');
           if |pieces| > 2 then Err(ValueError)
           else
             var tags := if |pieces| == 2 then Some(TagText(pieces[1])) else None;
             Ok(Parsed(interface, PatternSubstitution(Some(d), vars), Some(pieces[0]), tags)))
      case _ => Err(TypeError)
  }

  /** A text entry `device:port` with a colon-free port gives that device,
      substituted by a pattern variable of the same name, and that port. */
  lemma ParseDevicePort(interface: string, s: string, d: string, p: string, vars: map<string, string>,
                        split: ColonSplit)
    requires s != "any" && s != "none" && split(s) == Some((d, p)) && ':' !in p
    ensures ParseInterface(interface, SpecText(s), vars, split) ==
              Ok(Parsed(interface, if d != "any" && d in vars then Some(vars[d]) else Some(d), Some(p), None))
  {
    SplitWithout(p, ':');
  }

  /** A text entry `device:port:tags` also carries the tag text. */
  lemma ParseDevicePortTags(interface: string, s: string, d: string, p: string, tag: string,
                            vars: map<string, string>, split: ColonSplit)
    requires s != "any" && s != "none" && split(s) == Some((d, p + ":" + tag))
    requires ':' !in p && ':' !in tag
    ensures ParseInterface(interface, SpecText(s), vars, split) ==
              Ok(Parsed(interface, PatternSubstitution(Some(d), vars), Some(p), Some(TagText(tag))))
  {
    SplitFirst(p, ':', tag);
    SplitWithout(tag, ':');
    assert p + [':'] + tag == p + ":" + tag;
  }

  /** `none`, as text or as a mapping's device, means "no neighbour". */
  lemma ParseNone(interface: string, values: RawSpec, vars: map<string, string>, split: ColonSplit)
    requires values == SpecText("none") || (values.SpecDict? && values.device == Some("none"))
    ensures ParseInterface(interface, values, vars, split) == Ok(Parsed(interface, None, None, None))
  {
  }

  /** `self.add_interface(*args)`. */
  function BuildInterface(p: Parsed): Result<InterfacePattern, Error> {
    NewInterfacePattern(p.interface, p.device, p.port, p.tags)
  }

  /** One `{interface: spec}` entry, parsed and built. */
  function ParseEntry(entry: (string, RawSpec), vars: map<string, string>, split: ColonSplit)
    : (r: Result<InterfacePattern, Error>)
    ensures r.Ok? ==> r.value.interface == entry.0 && WellFormed(r.value)
  {
    var p :- ParseInterface(entry.0, entry.1, vars, split);
    BuildInterface(p)
  }

  /** `add_interfaces`: every entry in order, the first failure propagating. */
  function ParseAll(entries: seq<(string, RawSpec)>, vars: map<string, string>, split: ColonSplit)
    : (r: Result<seq<InterfacePattern>, Error>)
    ensures r.Ok? ==> |r.value| == |entries|
    ensures r.Ok? ==> forall i :: 0 <= i < |entries| ==> r.value[i].interface == entries[i].0 && WellFormed(r.value[i])
    decreases |entries|
  {
    if |entries| == 0 then Ok([])
    else
      var head :- ParseEntry(entries[0], vars, split);
      var tail :- ParseAll(entries[1..], vars, split);
      Ok([head] + tail)
  }

  /** The whole list is built exactly when every entry builds. */
  lemma {:induction false} ParseAllOk(entries: seq<(string, RawSpec)>, vars: map<string, string>, split: ColonSplit)
    ensures ParseAll(entries, vars, split).Ok? <==> forall i :: 0 <= i < |entries| ==> ParseEntry(entries[i], vars, split).Ok?
    decreases |entries|
  {
    if |entries| > 0 {
      ParseAllOk(entries[1..], vars, split);
      if forall i :: 0 <= i < |entries[1..]| ==> ParseEntry(entries[1..][i], vars, split).Ok? {
        forall i | 0 <= i < |entries|
          ensures ParseEntry(entries[i], vars, split).Ok? || i == 0
        {
          if i > 0 {
            assert entries[i] == entries[1..][i - 1];
          }
        }
      } else {
        var i :| 0 <= i < |entries[1..]| && !ParseEntry(entries[1..][i], vars, split).Ok?;
        assert entries[1..][i] == entries[i + 1];
      }
    }
  }

  /** A built list holds each entry's own result at its position. */
  lemma {:induction false} ParseAllValues(entries: seq<(string, RawSpec)>, vars: map<string, string>, split: ColonSplit)
    requires ParseAll(entries, vars, split).Ok?
    ensures forall i :: 0 <= i < |entries| ==>
              ParseEntry(entries[i], vars, split) == Ok(ParseAll(entries, vars, split).value[i])
    decreases |entries|
  {
    if |entries| > 0 {
      var r := ParseAll(entries, vars, split).value;
      var tail := ParseAll(entries[1..], vars, split);
      assert tail.Ok?;
      ParseAllValues(entries[1..], vars, split);
      forall i | 0 < i < |entries|
        ensures ParseEntry(entries[i], vars, split) == Ok(r[i])
      {
        assert entries[i] == entries[1..][i - 1];
        assert r[i] == tail.value[i - 1];
      }
    }
  }

  /** The whole list is built exactly when every entry builds, and then
      entry by entry. */
  lemma ParseAllSpec(entries: seq<(string, RawSpec)>, vars: map<string, string>, split: ColonSplit)
    ensures ParseAll(entries, vars, split).Ok? <==> forall i :: 0 <= i < |entries| ==> ParseEntry(entries[i], vars, split).Ok?
    ensures ParseAll(entries, vars, split).Ok? ==>
              forall i :: 0 <= i < |entries| ==> ParseAll(entries, vars, split).value[i] == ParseEntry(entries[i], vars, split).value
  {
    ParseAllOk(entries, vars, split);
    if ParseAll(entries, vars, split).Ok? {
      ParseAllValues(entries, vars, split);
    }
  }

  /** The mappings of an `interfaces` list, their items flattened in order. */
  function Flatten(groups: seq<seq<(string, RawSpec)>>): seq<(string, RawSpec)>
    decreases |groups|
  {
    if |groups| == 0 then [] else groups[0] + Flatten(groups[1..])
  }

  /** A pattern entry of a topology document; `NotAMapping` for an entry
      `Pattern(**entry)` cannot unpack. `name` and `definition` are `None`
      when the key is missing; `node` is `None` when the key is missing and
      `Some(v)` when it is present with value `v`. */
  datatype RawPattern =
    | RawPattern(name: Option<string>, definition: Option<string>, node: Option<Option<string>>,
                 variables: map<string, string>, interfaces: seq<seq<(string, RawSpec)>>)
    | NotAMapping

  datatype Pattern = Pattern(
    name: string,
    definition: string,
    node: Option<string>,
    variables: map<string, string>,
    interfaces: seq<InterfacePattern>)

  /** `Pattern(**entry)`: the two required arguments, then the interfaces. */
  function NewPattern(raw: RawPattern, split: ColonSplit): (r: Result<Pattern, Error>)
    ensures raw.NotAMapping? || raw.name == None || raw.definition == None ==> r == Err(TypeError)
    ensures r.Ok? ==> r.value.variables == raw.variables
    ensures r.Ok? ==> r.value.node == (if raw.node == None then None else raw.node.value)
    ensures r.Ok? ==> |r.value.interfaces| == |Flatten(raw.interfaces)|
    ensures r.Ok? ==> forall i :: 0 <= i < |r.value.interfaces| ==> WellFormed(r.value.interfaces[i])
  {
    match raw
    case NotAMapping => Err(TypeError)
    case RawPattern(name, definition, node, variables, groups) =>
      if name == None || definition == None then Err(TypeError)
      else
        var interfaces :- ParseAll(Flatten(groups), variables, split);
        Ok(Pattern(name.value, definition.value, if node == None then None else node.value, variables, interfaces))
  }

  /** The mapping `Pattern.serialize` returns; `node` is left out when it is
      falsy, and every interface becomes its own one-entry mapping. */
  datatype SerializedPattern = SerializedPattern(
    name: string,
    definition: string,
    variables: map<string, string>,
    node: Option<string>,
    interfaces: seq<(string, Serialized)>)

  function SerializeAll(ips: seq<InterfacePattern>): (s: seq<(string, Serialized)>)
    ensures |s| == |ips|
    ensures forall i :: 0 <= i < |ips| ==> s[i] == (ips[i].interface, Serialize(ips[i]))
    decreases |ips|
  {
    if |ips| == 0 then [] else [(ips[0].interface, Serialize(ips[0]))] + SerializeAll(ips[1..])
  }

  /** `Pattern.serialize`. */
  function SerializePattern(p: Pattern): (s: SerializedPattern)
    ensures s.node.Some? <==> p.node.Some? && p.node.value != ""
    ensures s.node.Some? ==> s.node == p.node
    ensures |s.interfaces| == |p.interfaces|
  {
    SerializedPattern(p.name, p.definition, p.variables,
                      if p.node.Some? && p.node.value != "" then p.node else None,
                      SerializeAll(p.interfaces))
  }

  /** A serialized interface as the document entry it is read back as. */
  function AsSpec(s: Serialized): RawSpec {
    SpecDict(Some(s.device), if s.port.Some? then s.port.value else None, Some(s.tags))
  }

  /** A serialized pattern as the document entry it is read back as. */
  function AsRaw(s: SerializedPattern): RawPattern {
    RawPattern(Some(s.name), Some(s.definition), if s.node.Some? then Some(s.node) else None,
               s.variables, Singletons(s.interfaces))
  }

  function Singletons(items: seq<(string, Serialized)>): (g: seq<seq<(string, RawSpec)>>)
    ensures |g| == |items|
    ensures forall i :: 0 <= i < |items| ==> g[i] == [(items[i].0, AsSpec(items[i].1))]
    decreases |items|
  {
    if |items| == 0 then [] else [[(items[0].0, AsSpec(items[0].1))]] + Singletons(items[1..])
  }

  /** The shape `_parse_interface` gives `any` and `none`: device and port
      both `any` or both absent, and no tags. */
  predicate Reserved(ip: InterfacePattern) {
    ip.tags == TagList([]) &&
    ((ip.device == None && ip.port == None) || (ip.device == Some("any") && ip.port == Some("any")))
  }

  /** Reading back a serialized interface: an `any` or `none` entry is
      rebuilt exactly. The literal device `none` (which `none:Ethernet1`
      gives) serializes as `device: none` and reads back as a line without
      a device; the device `any` reads back with port `any` whatever its
      port was; one with any other device is a mapping that reaches the
      text split and raises `TypeError`. */
  lemma ReparseInterface(ip: InterfacePattern, vars: map<string, string>, split: ColonSplit)
    requires WellFormed(ip)
    ensures Reserved(ip) ==> ParseEntry((ip.interface, AsSpec(Serialize(ip))), vars, split) == Ok(ip)
    ensures ip.device == Some("none") ==>
              ParseEntry((ip.interface, AsSpec(Serialize(ip))), vars, split)
                == Ok(InterfacePattern(ip.interface, ip.interfaces, None, None, [], TagList([])))
    ensures ip.device == Some("any") ==>
              ParseEntry((ip.interface, AsSpec(Serialize(ip))), vars, split)
                == Ok(InterfacePattern(ip.interface, ip.interfaces, Some("any"), Some("any"), ["any"], TagList([])))
    ensures ip.device.Some? && ip.device != Some("any") && ip.device != Some("none") ==>
              ParseEntry((ip.interface, AsSpec(Serialize(ip))), vars, split) == Err(TypeError)
  {
  }

  lemma {:induction false} FlattenSingletons(items: seq<(string, Serialized)>)
    ensures Flatten(Singletons(items)) == seq(|items|, i requires 0 <= i < |items| => (items[i].0, AsSpec(items[i].1)))
    decreases |items|
  {
    if |items| > 0 {
      FlattenSingletons(items[1..]);
    }
  }

  /** A pattern whose interfaces are all `any` or `none` entries reads back
      from its serialized form as itself, provided its node is not the
      empty string (which `serialize` drops). */
  lemma SerializeRoundTrip(p: Pattern, split: ColonSplit)
    requires p.node != Some("")
    requires forall i :: 0 <= i < |p.interfaces| ==> WellFormed(p.interfaces[i]) && Reserved(p.interfaces[i])
    ensures NewPattern(AsRaw(SerializePattern(p)), split) == Ok(p)
  {
    var s := SerializePattern(p);
    var entries := Flatten(Singletons(s.interfaces));
    FlattenSingletons(s.interfaces);
    ParseAllSpec(entries, p.variables, split);
    forall i | 0 <= i < |entries|
      ensures ParseEntry(entries[i], p.variables, split) == Ok(p.interfaces[i])
    {
      ReparseInterface(p.interfaces[i], p.variables, split);
    }
    var r := ParseAll(entries, p.variables, split);
    assert r.value == p.interfaces;
  }

  /** The outcome of `Pattern.match_node`: the verdict and the caller's
      variables after `variables.update(self.variables)`. */
  datatype Outcome = Outcome(matched: bool, variables: map<string, string>)

  /** The loop of `Pattern.match_node` from one interface pattern on, over
      the working table `t`. */
  function MatchFrom(ips: seq<InterfacePattern>, patVars: map<string, string>, t: Table,
                     vars: map<string, string>, regex: RegexEngine): (r: Result<Outcome, Error>)
    ensures |ips| == 0 ==> r == Ok(Outcome(true, vars))
    ensures r.Ok? ==> r.value.variables == if |ips| > 0 && ips[0].device.Some? then vars + patVars else vars
    ensures r.Err? ==> |ips| > 0 && ips[0].device.Some?
    decreases |ips|
  {
    if |ips| == 0 then Ok(Outcome(true, vars))
    else if ips[0].device == None then Ok(Outcome(ips[0].interface !in Keys(t), vars))
    else
      var vars' := vars + patVars;
      var ms :- MatchNeighbors(ips[0], t, vars', regex);
      if |ms| == 0 then Ok(Outcome(false, vars'))
      else
        var r := MatchFrom(ips[1..], patVars, Remove(t, ms[0]), vars', regex);
        assert vars' + patVars == vars';
        r
  }

  /** The caller's variables once `Pattern.match_node` returns or raises:
      updated with the pattern's as soon as its first interface pattern
      names a device, and untouched otherwise. */
  function VariablesAfter(p: Pattern, vars: map<string, string>): map<string, string> {
    if |p.interfaces| > 0 && p.interfaces[0].device.Some? then vars + p.variables else vars
  }

  /** `Pattern.match_node(node, variables)`: works on its own copy of the
      node's table, so the node is not modified. The update of the caller's
      variables has happened whenever the match raises. */
  function MatchNode(p: Pattern, n: Node, vars: map<string, string>, regex: RegexEngine): (r: Result<Outcome, Error>)
    ensures |p.interfaces| == 0 ==> r == Ok(Outcome(true, vars))
    ensures r.Ok? ==> r.value.variables == VariablesAfter(p, vars)
    ensures r.Err? ==> VariablesAfter(p, vars) == vars + p.variables
  {
    MatchFrom(p.interfaces, p.variables, n.neighbors, vars, regex)
  }

  /** The interface one loop iteration claims, if it claims one. */
  function Step(ip: InterfacePattern, t: Table, vars: map<string, string>, regex: RegexEngine): (x: Option<string>)
    ensures x.Some? ==> x.value in Keys(t)
  {
    match MatchNeighbors(ip, t, vars, regex)
    case Err(_) => None
    case Ok(ms) => if |ms| == 0 then None else Some(ms[0])
  }

  /** A claimed interface carries a neighbour the interface pattern accepts. */
  lemma StepAccepting(ip: InterfacePattern, t: Table, vars: map<string, string>, regex: RegexEngine)
    ensures var x := Step(ip, t, vars, regex);
      x.Some? ==> HasAccepting(ip, Get(t, x.value), vars, regex)
  {
    MatchNeighborsSound(ip, t, vars, regex);
  }

  /** The interfaces the loop claims under the variables in force, one per
      interface pattern, up to the first that stops it. */
  function Claims(ips: seq<InterfacePattern>, t: Table, vars: map<string, string>, regex: RegexEngine)
    : (c: seq<string>)
    ensures |c| <= |ips|
    decreases |ips|
  {
    if |ips| == 0 || ips[0].device == None then []
    else
      match Step(ips[0], t, vars, regex)
      case None => []
      case Some(x) => [x] + Claims(ips[1..], Remove(t, x), vars, regex)
  }

  /** `c` can be claimed from `t` in order: each element is a key of the
      table left after removing the ones before it. */
  predicate Chain(c: seq<string>, t: Table)
    decreases |c|
  {
    |c| == 0 || (c[0] in Keys(t) && Chain(c[1..], Remove(t, c[0])))
  }

  /** The claims form a chain from the table the match started from. */
  lemma {:induction false} ClaimsChain(ips: seq<InterfacePattern>, t: Table, vars: map<string, string>,
                                       regex: RegexEngine)
    ensures Chain(Claims(ips, t, vars, regex), t)
    decreases |ips|
  {
    if |ips| > 0 && ips[0].device.Some? && Step(ips[0], t, vars, regex).Some? {
      var x := Step(ips[0], t, vars, regex).value;
      var rest := Claims(ips[1..], Remove(t, x), vars, regex);
      ClaimsChain(ips[1..], Remove(t, x), vars, regex);
      assert Claims(ips, t, vars, regex) == [x] + rest;
      assert ([x] + rest)[1..] == rest;
    }
  }

  lemma {:induction false} ChainInTable(c: seq<string>, t: Table, i: nat)
    requires Chain(c, t) && i < |c|
    ensures c[i] in Keys(t)
    ensures i > 0 ==> c[i] != c[0]
    decreases i
  {
    if i > 0 {
      ChainInTable(c[1..], Remove(t, c[0]), i - 1);
      RemoveKeys(t, c[0], c[i]);
    }
  }

  lemma {:induction false} ChainDistinct(c: seq<string>, t: Table, i: nat, j: nat)
    requires Chain(c, t) && i < j < |c|
    ensures c[i] != c[j]
    decreases i
  {
    if i == 0 {
      ChainInTable(c, t, j);
    } else {
      ChainDistinct(c[1..], Remove(t, c[0]), i - 1, j - 1);
    }
  }

  /** Every claimed interface is in the table the match started from, and
      differs from the first claimed one. */
  lemma ClaimInTable(ips: seq<InterfacePattern>, t: Table, vars: map<string, string>,
                     regex: RegexEngine, i: nat)
    requires i < |Claims(ips, t, vars, regex)|
    ensures Claims(ips, t, vars, regex)[i] in Keys(t)
    ensures i > 0 ==> Claims(ips, t, vars, regex)[i] != Claims(ips, t, vars, regex)[0]
  {
    ClaimsChain(ips, t, vars, regex);
    ChainInTable(Claims(ips, t, vars, regex), t, i);
  }

  /** No interface is claimed twice. */
  lemma ClaimsDistinct(ips: seq<InterfacePattern>, t: Table, vars: map<string, string>,
                       regex: RegexEngine, i: nat, j: nat)
    requires i < j < |Claims(ips, t, vars, regex)|
    ensures Claims(ips, t, vars, regex)[i] != Claims(ips, t, vars, regex)[j]
  {
    ClaimsChain(ips, t, vars, regex);
    ChainDistinct(Claims(ips, t, vars, regex), t, i, j);
  }

  /** The `i`-th claimed interface carries a neighbour the `i`-th interface
      pattern accepts. */
  lemma {:induction false} ClaimAccepted(ips: seq<InterfacePattern>, t: Table, vars: map<string, string>,
                                         regex: RegexEngine, i: nat)
    requires i < |Claims(ips, t, vars, regex)|
    ensures HasAccepting(ips[i], Get(t, Claims(ips, t, vars, regex)[i]), vars, regex)
    decreases i
  {
    if i == 0 {
      StepAccepting(ips[0], t, vars, regex);
    } else {
      ClaimsCons(ips, t, vars, regex, i);
      var c := Claims(ips, t, vars, regex);
      var t' := Remove(t, c[0]);
      assert ips[1..][i - 1] == ips[i];
      ClaimAccepted(ips[1..], t', vars, regex, i - 1);
      ClaimInTable(ips, t, vars, regex, i);
      RemoveGet(t, c[0], c[i]);
    }
  }

  /** Past the first claim, the claims are those of the remaining interface
      patterns over the table without the first claimed interface. */
  lemma ClaimsCons(ips: seq<InterfacePattern>, t: Table, vars: map<string, string>,
                   regex: RegexEngine, i: nat)
    requires 0 < i < |Claims(ips, t, vars, regex)|
    ensures var c := Claims(ips, t, vars, regex);
      && i - 1 < |Claims(ips[1..], Remove(t, c[0]), vars, regex)|
      && c[i] == Claims(ips[1..], Remove(t, c[0]), vars, regex)[i - 1]
  {
    var x := Step(ips[0], t, vars, regex).value;
    var c' := Claims(ips[1..], Remove(t, x), vars, regex);
    assert Claims(ips, t, vars, regex) == [x] + c';
  }

  /** The claimed interfaces are distinct interfaces of the starting table,
      each carrying a neighbour its interface pattern accepts. */
  lemma ClaimsSpec(ips: seq<InterfacePattern>, t: Table, vars: map<string, string>, regex: RegexEngine)
    ensures var c := Claims(ips, t, vars, regex);
      && (forall i :: 0 <= i < |c| ==> c[i] in Keys(t))
      && (forall i, j :: 0 <= i < j < |c| ==> c[i] != c[j])
      && (forall i :: 0 <= i < |c| ==> HasAccepting(ips[i], Get(t, c[i]), vars, regex))
  {
    var c := Claims(ips, t, vars, regex);
    forall i | 0 <= i < |c|
      ensures c[i] in Keys(t) && HasAccepting(ips[i], Get(t, c[i]), vars, regex)
    {
      ClaimInTable(ips, t, vars, regex, i);
      ClaimAccepted(ips, t, vars, regex, i);
    }
    forall i, j | 0 <= i < j < |c|
      ensures c[i] != c[j]
    {
      ClaimsDistinct(ips, t, vars, regex, i, j);
    }
  }

  predicate NoNoneDevice(ips: seq<InterfacePattern>) {
    forall i :: 0 <= i < |ips| ==> ips[i].device.Some?
  }

  /** A successful match over interface patterns that all name a device
      claims one interface per pattern, under the caller's variables updated
      with the pattern's. */
  lemma {:induction false} MatchClaimsAll(ips: seq<InterfacePattern>, patVars: map<string, string>, t: Table,
                                          vars: map<string, string>, regex: RegexEngine)
    requires NoNoneDevice(ips)
    requires MatchFrom(ips, patVars, t, vars, regex).Ok? && MatchFrom(ips, patVars, t, vars, regex).value.matched
    ensures |Claims(ips, t, vars + patVars, regex)| == |ips|
    decreases |ips|
  {
    if |ips| > 0 {
      var vars' := vars + patVars;
      var ms := MatchNeighbors(ips[0], t, vars', regex).value;
      assert Step(ips[0], t, vars', regex) == Some(ms[0]);
      assert NoNoneDevice(ips[1..]) by {
        forall i | 0 <= i < |ips[1..]| ensures ips[1..][i].device.Some? {
          assert ips[1..][i] == ips[i + 1];
        }
      }
      MatchClaimsAll(ips[1..], patVars, Remove(t, ms[0]), vars', regex);
      assert vars' + patVars == vars';
    }
  }

  lemma {:induction false} DistinctCard(c: seq<string>)
    requires forall i, j :: 0 <= i < j < |c| ==> c[i] != c[j]
    ensures |set x | x in c| == |c|
    decreases |c|
  {
    if |c| > 0 {
      DistinctCard(c[1..]);
      assert (set x | x in c) == {c[0]} + (set x | x in c[1..]);
      assert c[0] !in (set x | x in c[1..]) by {
        forall k | 0 <= k < |c[1..]| ensures c[1..][k] != c[0] {
          assert c[1..][k] == c[k + 1];
        }
      }
    }
  }

  lemma {:induction false} SetCard(k: seq<string>)
    ensures |set x | x in k| <= |k|
    decreases |k|
  {
    if |k| > 0 {
      SetCard(k[1..]);
      assert (set x | x in k) == {k[0]} + (set x | x in k[1..]);
    }
  }

  /** A node matches a pattern whose interface patterns all name a device
      only if it has at least as many neighbour interfaces as the pattern
      has interface patterns: no interface is claimed twice. */
  lemma MatchNeedsInterfaces(p: Pattern, n: Node, vars: map<string, string>, regex: RegexEngine)
    requires NoNoneDevice(p.interfaces)
    requires MatchNode(p, n, vars, regex).Ok? && MatchNode(p, n, vars, regex).value.matched
    ensures |p.interfaces| <= |Keys(n.neighbors)|
  {
    var c := Claims(p.interfaces, n.neighbors, vars + p.variables, regex);
    MatchClaimsAll(p.interfaces, p.variables, n.neighbors, vars, regex);
    ClaimsSpec(p.interfaces, n.neighbors, vars + p.variables, regex);
    DistinctCard(c);
    SetCard(Keys(n.neighbors));
    assert (set x | x in c) <= (set x | x in Keys(n.neighbors));
    assert |set x | x in c| <= |set x | x in Keys(n.neighbors)| by {
      SubsetCard(set x | x in c, set x | x in Keys(n.neighbors));
    }
  }

  lemma SubsetCard(a: set<string>, b: set<string>)
    requires a <= b
    ensures |a| <= |b|
  {
    assert b == a + (b - a);
  }

  /** An interface pattern with no device ends the match on the spot:
      whatever follows it is never examined. */
  lemma {:induction false} NoneDeviceStops(ips: seq<InterfacePattern>, more: seq<InterfacePattern>,
                                           patVars: map<string, string>, t: Table,
                                           vars: map<string, string>, regex: RegexEngine)
    requires exists k :: 0 <= k < |ips| && ips[k].device == None
    ensures MatchFrom(ips + more, patVars, t, vars, regex) == MatchFrom(ips, patVars, t, vars, regex)
    decreases |ips|
  {
    assert (ips + more)[0] == ips[0];
    if ips[0].device.Some? {
      var k :| 0 <= k < |ips| && ips[k].device == None;
      assert ips[1..][k - 1] == ips[k];
      assert (ips + more)[1..] == ips[1..] + more;
      var vars' := vars + patVars;
      var r := MatchNeighbors(ips[0], t, vars', regex);
      if r.Ok? && |r.value| > 0 {
        NoneDeviceStops(ips[1..], more, patVars, Remove(t, r.value[0]), vars', regex);
      }
    }
  }

  /** An interface pattern with no device decides the match on the spot:
      it matches exactly when its raw interface name is not a key of the
      working table, and the caller's variables are not updated. */
  lemma NoneDeviceVerdict(ip: InterfacePattern, more: seq<InterfacePattern>, patVars: map<string, string>,
                          t: Table, vars: map<string, string>, regex: RegexEngine)
    requires ip.device == None
    ensures MatchFrom([ip] + more, patVars, t, vars, regex) == Ok(Outcome(ip.interface !in Keys(t), vars))
  {
    assert ([ip] + more)[0] == ip;
  }

  /** A pattern that stops at an interface pattern matching nothing fails,
      whatever follows. */
  lemma UnmatchedFails(ips: seq<InterfacePattern>, patVars: map<string, string>, t: Table,
                       vars: map<string, string>, regex: RegexEngine)
    requires |ips| > 0 && ips[0].device.Some?
    requires MatchNeighbors(ips[0], t, vars + patVars, regex) == Ok([])
    ensures MatchFrom(ips, patVars, t, vars, regex) == Ok(Outcome(false, vars + patVars))
  {
  }
}

=== FILE: ranges.dfy ===
/** `InterfacePattern.range`: expansion of an interface or port specifier
    such as `Ethernet1-3,5` into individual interface names. */
module Ranges {
  import opened Base
  import opened Text

  /** The family prefix that turns a specifier into a range and that every
      expanded name receives. */
  const Family: string := "Ethernet"

  /** The text after the leading run of letters. */
  function DropLetters(s: string): (r: string)
    ensures |r| <= |s|
    decreases |s|
  {
    if |s| > 0 && IsLetter(s[0]) then DropLetters(s[1..]) else s
  }

  /** The text up to the first letter. */
  function TakeUntilLetter(s: string): (r: string)
    ensures |r| <= |s| && NoLetters(r)
    decreases |s|
  {
    if |s| == 0 || IsLetter(s[0]) then "" else [s[0]] + TakeUntilLetter(s[1..])
  }

  lemma {:induction false} DropLettersShape(s: string)
    ensures DropLetters(s) == s[|s| - |DropLetters(s)|..]
    ensures forall i :: 0 <= i < |s| - |DropLetters(s)| ==> IsLetter(s[i])
    ensures |DropLetters(s)| > 0 ==> !IsLetter(DropLetters(s)[0])
    decreases |s|
  {
    if |s| > 0 && IsLetter(s[0]) {
      DropLettersShape(s[1..]);
    }
  }

  lemma {:induction false} TakeUntilLetterShape(s: string)
    ensures TakeUntilLetter(s) == s[..|TakeUntilLetter(s)|]
    ensures |TakeUntilLetter(s)| < |s| ==> IsLetter(s[|TakeUntilLetter(s)|])
    decreases |s|
  {
    if |s| > 0 && !IsLetter(s[0]) {
      TakeUntilLetterShape(s[1..]);
    }
  }

  /** `re.split("[a-zA-Z]*", s)[1]` under Python 2, whose `re.split` ignores
      empty matches: for a specifier that starts with a letter, the text
      after the leading run of letters, up to the next letter. */
  function IndexText(s: string): (r: string)
    ensures NoLetters(r) && |r| <= |s|
  {
    TakeUntilLetter(DropLetters(s))
  }

  /** The index text is the letter-free run that directly follows the
      leading letters of the specifier and ends at the next letter or at the
      end of the specifier. */
  lemma IndexTextSpec(s: string)
    ensures exists k :: 0 <= k && k + |IndexText(s)| <= |s| && IndexText(s) == s[k..k + |IndexText(s)|]
              && (forall i :: 0 <= i < k ==> IsLetter(s[i]))
              && (k < |s| ==> !IsLetter(s[k]))
              && (k + |IndexText(s)| < |s| ==> IsLetter(s[k + |IndexText(s)|]))
  {
    var d := DropLetters(s);
    var k := |s| - |d|;
    DropLettersShape(s);
    TakeUntilLetterShape(d);
    var r := IndexText(s);
    assert s[k..k + |r|] == d[..|r|];
    if k + |r| < |s| {
      assert s[k + |r|] == d[|r|];
    }
  }

  /** `['Ethernet%s' % i for i in range(a, b + 1)]`. */
  function Span(a: nat, b: nat): (names: seq<string>)
    ensures |names| == if a <= b then b - a + 1 else 0
    ensures forall i :: 0 <= i < |names| ==> names[i] == Family + Dec(a + i)
    decreases if a <= b then b - a + 1 else 0
  {
    if a > b then [] else [Family + Dec(a)] + Span(a + 1, b)
  }

  /** One comma-separated piece: `a-b` goes through `int` on both bounds,
      any other piece is kept verbatim after the family prefix. A piece with
      more than one `-` or a bound `int` rejects raises `ValueError`. */
  function ExpandPiece(piece: string): (r: Result<seq<string>, Error>)
    ensures r.Ok? ==> forall i :: 0 <= i < |r.value| ==> StartsWith(r.value[i], Family)
  {
    if '-' in piece then
      var bounds := SplitOn(piece, '-');
      if |bounds| != 2 then Err(ValueError)
      else
        match (ParseInt(bounds[0]), ParseInt(bounds[1]))
        case (Some(a), Some(b)) => Ok(Span(a, b))
        case _ => Err(ValueError)
    else
      Ok([Family + piece])
  }

  /** The pieces' expansions concatenated in comma order; the first failing
      piece's error otherwise. */
  function ExpandAll(pieces: seq<string>): (r: Result<seq<string>, Error>)
    ensures r.Ok? ==> forall i :: 0 <= i < |r.value| ==> StartsWith(r.value[i], Family)
    decreases |pieces|
  {
    if |pieces| == 0 then Ok([])
    else
      var head :- ExpandPiece(pieces[0]);
      var tail :- ExpandAll(pieces[1..]);
      Ok(head + tail)
  }

  /** `InterfacePattern.range(spec)`. */
  function Range(spec: Option<string>): (r: Result<seq<string>, Error>)
    ensures spec == None ==> r == Ok([])
    ensures spec.Some? && !StartsWith(spec.value, Family) ==> r == Ok([spec.value])
    ensures spec.Some? && StartsWith(spec.value, Family) && r.Ok? ==>
              forall i :: 0 <= i < |r.value| ==> StartsWith(r.value[i], Family)
  {
    match spec
    case None => Ok([])
    case Some(s) =>
      if !StartsWith(s, Family) then Ok([s])
      else ExpandAll(SplitOn(IndexText(s), ','))
  }

  lemma {:induction false} DropLettersPrefix(l: string, x: string)
    requires forall i :: 0 <= i < |l| ==> IsLetter(l[i])
    ensures DropLetters(l + x) == DropLetters(x)
    decreases |l|
  {
    if |l| == 0 {
      assert l + x == x;
    } else {
      assert IsLetter((l + x)[0]);
      assert (l + x)[1..] == l[1..] + x;
      DropLettersPrefix(l[1..], x);
    }
  }

  lemma {:induction false} TakeUntilLetterAll(x: string)
    requires NoLetters(x)
    ensures TakeUntilLetter(x) == x
    decreases |x|
  {
    if |x| > 0 {
      assert x[0] in x;
      assert NoLetters(x[1..]) by {
        forall c | c in x[1..] ensures c in x { }
      }
      TakeUntilLetterAll(x[1..]);
      assert [x[0]] + x[1..] == x;
    }
  }

  lemma IndexTextOfFamily(x: string)
    requires NoLetters(x)
    ensures StartsWith(Family + x, Family)
    ensures IndexText(Family + x) == x
  {
    assert (Family + x)[..|Family|] == Family;
    DropLettersPrefix(Family, x);
    TakeUntilLetterAll(x);
  }

  /** A piece-free index text is one that the comma split leaves alone. */
  predicate PlainPiece(p: string) {
    NoLetters(p) && ',' !in p
  }

  /** A family range is the concatenation, in comma order, of the expansions
      of its comma-separated pieces. */
  lemma RangeOfPieces(pieces: seq<string>)
    requires |pieces| >= 1
    requires forall i :: 0 <= i < |pieces| ==> PlainPiece(pieces[i])
    ensures Range(Some(Family + JoinOn(pieces, ','))) == ExpandAll(pieces)
  {
    var x := JoinOn(pieces, ',');
    forall c | c in x
      ensures !IsLetter(c)
    {
      JoinChars(pieces, ',', c);
    }
    IndexTextOfFamily(x);
    SplitJoin(pieces, ',');
  }

  /** `a-b` expands to the `b-a+1` names `Ethernet<a>` .. `Ethernet<b>`
      in ascending order (none when `b < a`). */
  lemma ExpandSpan(a: nat, b: nat)
    ensures ExpandPiece(Dec(a) + "-" + Dec(b)) == Ok(Span(a, b))
  {
    var piece := Dec(a) + "-" + Dec(b);
    assert piece[|Dec(a)|] == '-';
    ParseIntDec(a);
    ParseIntDec(b);
    assert JoinOn([Dec(a), Dec(b)], '-') == piece;
    SplitJoin([Dec(a), Dec(b)], '-');
  }

  /** `int` takes a `+` sign followed by whitespace, so `+ <a>-<b>`
      expands to the same span as `<a>-<b>`. */
  lemma ExpandSignedSpan(a: nat, w: string, b: nat)
    requires AllSpace(w)
    ensures ExpandPiece("+" + w + Dec(a) + "-" + Dec(b)) == Ok(Span(a, b))
  {
    var lo := "+" + w + Dec(a);
    SignedBound(a, w);
    ParseIntDec(b);
    var parts := [lo, Dec(b)];
    var piece := JoinOn(parts, '-');
    assert piece == "+" + w + Dec(a) + "-" + Dec(b) by {
      assert JoinOn(parts[1..], '-') == Dec(b);
    }
    assert piece[|lo|] == '-';
    SplitJoin(parts, '-');
  }

  /** The lower bound `+ <a>` reads as `a`. */
  lemma SignedBound(a: nat, w: string)
    requires AllSpace(w)
    ensures '-' !in "+" + w + Dec(a)
    ensures ParseInt("+" + w + Dec(a)) == Some(a)
  {
    ParseIntSigned(a, "", w, "");
    assert "" + "+" + w + Dec(a) + "" == "+" + w + Dec(a);
  }

  /** `Range('Ethernet<a>-<b>')` is the ascending span from `a` to `b`. */
  lemma RangeSpan(a: nat, b: nat)
    ensures Range(Some(Family + Dec(a) + "-" + Dec(b))) == Ok(Span(a, b))
  {
    var piece := Dec(a) + "-" + Dec(b);
    DigitsArePlain(Dec(a));
    DigitsArePlain(Dec(b));
    assert PlainPiece(piece);
    ExpandSpan(a, b);
    RangeOnePiece(piece);
    assert Family + piece == Family + Dec(a) + "-" + Dec(b);
  }

  /** `Range('Ethernet+ <a>-<b>')`: whitespace after the sign of the lower
      bound is skipped, as Python 2's `int` does. */
  lemma RangeSignedSpan(a: nat, w: string, b: nat)
    requires AllSpace(w)
    ensures Range(Some(Family + "+" + w + Dec(a) + "-" + Dec(b))) == Ok(Span(a, b))
  {
    var piece := "+" + w + Dec(a) + "-" + Dec(b);
    SignedPiecePlain(a, w, b);
    ExpandSignedSpan(a, w, b);
    RangeOnePiece(piece);
    AppendRegroup(Family, "+", w, Dec(a), "-", Dec(b));
  }

  lemma AppendRegroup(p: string, q: string, r: string, x: string, y: string, z: string)
    ensures p + (q + r + x + y + z) == p + q + r + x + y + z
  {
  }

  /** A family range of one piece that expands is that piece's expansion. */
  lemma RangeOnePiece(piece: string)
    requires PlainPiece(piece) && ExpandPiece(piece).Ok?
    ensures Range(Some(Family + piece)) == ExpandPiece(piece)
  {
    assert JoinOn([piece], ',') == piece;
    RangeOfPieces([piece]);
    var e := ExpandPiece(piece).value;
    assert ExpandAll([piece][1..]) == Ok([]);
    assert e + [] == e;
  }

  lemma SignedPiecePlain(a: nat, w: string, b: nat)
    requires AllSpace(w)
    ensures PlainPiece("+" + w + Dec(a) + "-" + Dec(b))
  {
    DigitsArePlain(Dec(a));
    DigitsArePlain(Dec(b));
    forall c | c in w
      ensures !IsLetter(c) && c != ','
    {
      var i :| 0 <= i < |w| && w[i] == c;
    }
  }

  /** A single interface name of the family expands to itself: a single
      index is kept verbatim, not passed through `int`. */
  lemma RangeSingle(index: string)
    requires PlainPiece(index) && '-' !in index
    ensures Range(Some(Family + index)) == Ok([Family + index])
  {
    assert JoinOn([index], ',') == index;
    RangeOfPieces([index]);
    assert ExpandPiece(index) == Ok([Family + index]);
    assert ExpandAll([index][1..]) == Ok([]);
    assert [Family + index] + [] == [Family + index];
    assert ExpandAll([index]) == Ok([Family + index]);
  }

  lemma ExampleSpan()
    ensures Span(1, 3) == ["Ethernet1", "Ethernet2", "Ethernet3"]
  {
    var s := Span(1, 3);
    assert Dec(1) == "1" && Dec(2) == "2" && Dec(3) == "3";
    assert s[0] == Family + Dec(1) == "Ethernet1";
    assert s[1] == Family + Dec(2) == "Ethernet2";
    assert s[2] == Family + Dec(3) == "Ethernet3";
  }

  lemma ExampleText()
    ensures Family + JoinOn(["1-3", "5"], ',') == "Ethernet1-3,5"
    ensures "1-3" == Dec(1) + "-" + Dec(3)
  {
    assert JoinOn(["5"], ',') == "5";
    assert Dec(1) == "1" && Dec(3) == "3";
  }

  lemma ExampleExpand()
    ensures ExpandAll(["1-3", "5"]) == Ok(["Ethernet1", "Ethernet2", "Ethernet3", "Ethernet5"])
  {
    var pieces := ["1-3", "5"];
    ExampleText();
    ExpandSpan(1, 3);
    ExampleSpan();
    assert ExpandPiece(pieces[0]) == Ok(["Ethernet1", "Ethernet2", "Ethernet3"]);
    assert '-' !in "5" && Family + "5" == "Ethernet5";
    assert ExpandPiece("5") == Ok(["Ethernet5"]);
    assert ExpandAll(["5"][1..]) == Ok([]);
    assert ["Ethernet5"] + [] == ["Ethernet5"];
    assert ExpandAll(["5"]) == Ok(["Ethernet5"]);
    assert pieces[1..] == ["5"];
    assert ["Ethernet1", "Ethernet2", "Ethernet3"] + ["Ethernet5"]
        == ["Ethernet1", "Ethernet2", "Ethernet3", "Ethernet5"];
  }

  /** The documented example: `Ethernet1-3,5`. */
  lemma RangeExample()
    ensures Range(Some("Ethernet1-3,5")) == Ok(["Ethernet1", "Ethernet2", "Ethernet3", "Ethernet5"])
  {
    ExampleText();
    assert PlainPiece("1-3") && PlainPiece("5");
    RangeOfPieces(["1-3", "5"]);
    ExampleExpand();
  }
}

=== FILE: resolver.dfy ===
/** `resources(attributes, node)`: resolves a definition's attribute tree,
    replacing every `name('arg')` text by the result of calling the pool
    method `name` with the argument and the node. */
module Resolver {
  import opened Base
  import opened Text
  import opened Functions

  /** An attribute value: a text, a list, a nested mapping (in item order),
      or any other scalar (a number, a boolean), kept as written. */
  datatype Value =
    | Str(s: string)
    | List(items: seq<Value>)
    | Dict(entries: seq<(string, Value)>)
    | Scalar(literal: string)

  /** `getattr(Resources(), name)(arg, node)` for the node being resolved:
      the pool methods and their file access are not modelled, so callers
      supply them; an unknown name is expected to give `AttributeError`. */
  type Invoke = (string, string) -> Result<Value, Error>

  /** A text: a call is replaced by its result, anything else is kept. */
  function ResolveString(s: string, invoke: Invoke): (r: Result<Value, Error>)
    ensures ParseCall(s).None? ==> r == Ok(Str(s))
    ensures '(' !in s ==> r == Ok(Str(s))
  {
    CallHasParen(s);
    match ParseCall(s)
    case None => Ok(Str(s))
    case Some(c) => invoke(c.name, c.arg)
  }

  /** The items of a list: each must be a text (`FUNC_RE.match` raises
      `TypeError` on anything else); nested lists and mappings are not
      resolved. */
  function ResolveItems(items: seq<Value>, invoke: Invoke): (r: Result<seq<Value>, Error>)
    ensures r.Ok? ==> |r.value| == |items|
    decreases |items|
  {
    if |items| == 0 then Ok([])
    else
      var head :- if items[0].Str? then ResolveString(items[0].s, invoke) else Err(TypeError);
      var tail :- ResolveItems(items[1..], invoke);
      Ok([head] + tail)
  }

  /** One attribute value. */
  function ResolveValue(v: Value, invoke: Invoke): (r: Result<Value, Error>)
    ensures v.Scalar? ==> r == Ok(v)
    ensures v.Dict? && r.Ok? ==> r.value.Dict? && |r.value.entries| == |v.entries|
    ensures v.List? && r.Ok? ==> r.value.List? && |r.value.items| == |v.items|
    decreases v
  {
    match v
    case Dict(entries) =>
      var es :- ResolveFrom(entries, 0, invoke);
      Ok(Dict(es))
    case List(items) =>
      var vs :- ResolveItems(items, invoke);
      Ok(List(vs))
    case Str(s) => ResolveString(s, invoke)
    case Scalar(_) => Ok(v)
  }

  /** The entries of a mapping from position `i` on, each key kept with its
      resolved value. */
  function ResolveFrom(entries: seq<(string, Value)>, i: nat, invoke: Invoke)
    : (r: Result<seq<(string, Value)>, Error>)
    requires i <= |entries|
    ensures r.Ok? ==> |r.value| == |entries| - i
    ensures r.Ok? ==> forall j :: i <= j < |entries| ==> r.value[j - i].0 == entries[j].0
    decreases Dict(entries), |entries| - i
  {
    if i == |entries| then Ok([])
    else
      assert entries[i] in entries;
      var head :- ResolveValue(entries[i].1, invoke);
      var tail :- ResolveFrom(entries, i + 1, invoke);
      Ok([(entries[i].0, head)] + tail)
  }

  /** `resources(attributes, node)`. */
  function Resources(attributes: seq<(string, Value)>, invoke: Invoke): (r: Result<seq<(string, Value)>, Error>)
    ensures r.Ok? ==> |r.value| == |attributes|
    ensures r.Ok? ==> forall j :: 0 <= j < |attributes| ==> r.value[j].0 == attributes[j].0
  {
    ResolveFrom(attributes, 0, invoke)
  }

  /** Once resolved, each list item is a text replaced by its own
      resolution. */
  lemma {:induction false} ResolveItemsValues(items: seq<Value>, invoke: Invoke)
    requires ResolveItems(items, invoke).Ok?
    ensures forall j :: 0 <= j < |items| ==>
              items[j].Str? && ResolveString(items[j].s, invoke) == Ok(ResolveItems(items, invoke).value[j])
    decreases |items|
  {
    if |items| > 0 {
      var r := ResolveItems(items, invoke).value;
      var tail := ResolveItems(items[1..], invoke);
      assert tail.Ok?;
      ResolveItemsValues(items[1..], invoke);
      forall j | 0 < j < |items|
        ensures items[j].Str? && ResolveString(items[j].s, invoke) == Ok(r[j])
      {
        assert items[j] == items[1..][j - 1];
        assert r[j] == tail.value[j - 1];
      }
    }
  }

  /** The entries from position `i` on resolve exactly when every value
      does. */
  lemma {:induction false} ResolveFromOk(entries: seq<(string, Value)>, i: nat, invoke: Invoke)
    requires i <= |entries|
    ensures ResolveFrom(entries, i, invoke).Ok? <==>
              forall j :: i <= j < |entries| ==> ResolveValue(entries[j].1, invoke).Ok?
    decreases |entries| - i
  {
    if i < |entries| {
      ResolveFromOk(entries, i + 1, invoke);
      var head := ResolveValue(entries[i].1, invoke);
      var tail := ResolveFrom(entries, i + 1, invoke);
      assert ResolveFrom(entries, i, invoke).Ok? <==> head.Ok? && tail.Ok?;
      if !tail.Ok? {
        var j :| i + 1 <= j < |entries| && !ResolveValue(entries[j].1, invoke).Ok?;
      }
    }
  }

  /** Once resolved, each entry's value is its own value's resolution,
      nested calls included. */
  lemma {:induction false} ResolveFromValues(entries: seq<(string, Value)>, i: nat, invoke: Invoke)
    requires i <= |entries|
    requires ResolveFrom(entries, i, invoke).Ok?
    ensures forall j :: i <= j < |entries| ==>
              ResolveValue(entries[j].1, invoke) == Ok(ResolveFrom(entries, i, invoke).value[j - i].1)
    decreases |entries| - i
  {
    if i < |entries| {
      var r := ResolveFrom(entries, i, invoke);
      var head := ResolveValue(entries[i].1, invoke);
      var tail := ResolveFrom(entries, i + 1, invoke);
      assert head.Ok? && tail.Ok?;
      ResolveFromValues(entries, i + 1, invoke);
      assert r.value == [(entries[i].0, head.value)] + tail.value;
      forall j | i < j < |entries|
        ensures ResolveValue(entries[j].1, invoke) == Ok(r.value[j - i].1)
      {
        assert r.value[j - i] == tail.value[j - (i + 1)];
      }
    }
  }

  /** `resources` succeeds exactly when every attribute value resolves, and
      then maps each key to its own value's resolution. */
  lemma ResourcesValues(attributes: seq<(string, Value)>, invoke: Invoke)
    ensures Resources(attributes, invoke).Ok? <==>
              forall j :: 0 <= j < |attributes| ==> ResolveValue(attributes[j].1, invoke).Ok?
    ensures Resources(attributes, invoke).Ok? ==>
              forall j :: 0 <= j < |attributes| ==>
                ResolveValue(attributes[j].1, invoke) == Ok(Resources(attributes, invoke).value[j].1)
  {
    var r := ResolveFrom(attributes, 0, invoke);
    assert Resources(attributes, invoke) == r;
    ResolveFromOk(attributes, 0, invoke);
    if r.Ok? {
      ResolveFromValues(attributes, 0, invoke);
      forall j | 0 <= j < |attributes|
        ensures ResolveValue(attributes[j].1, invoke) == Ok(r.value[j].1)
      {
        assert j - 0 == j;
      }
    }
  }

  /** A text that `FUNC_RE` does not match. */
  predicate Plain(s: string) {
    ParseCall(s) == None
  }

  /** No text anywhere in the tree is a call, and every list holds texts
      only. */
  predicate CallFree(v: Value)
    decreases v
  {
    match v
    case Str(s) => Plain(s)
    case List(items) => forall j :: 0 <= j < |items| ==> items[j].Str? && Plain(items[j].s)
    case Dict(entries) => forall j :: 0 <= j < |entries| ==> entries[j] in entries && CallFree(entries[j].1)
    case Scalar(_) => true
  }

  lemma {:induction false} ItemsCallFree(items: seq<Value>, invoke: Invoke)
    requires forall j :: 0 <= j < |items| ==> items[j].Str? && Plain(items[j].s)
    ensures ResolveItems(items, invoke) == Ok(items)
    decreases |items|
  {
    if |items| > 0 {
      ItemsCallFree(items[1..], invoke);
      assert [items[0]] + items[1..] == items;
    }
  }

  /** A tree without calls resolves to itself: nothing is allocated. */
  lemma {:induction false} CallFreeUnchanged(v: Value, invoke: Invoke)
    requires CallFree(v)
    ensures ResolveValue(v, invoke) == Ok(v)
    decreases v, 1
  {
    match v
    case Dict(entries) =>
      EntriesCallFree(entries, 0, invoke);
      assert entries[0..] == entries;
    case List(items) =>
      ItemsCallFree(items, invoke);
    case Str(s) =>
    case Scalar(_) =>
  }

  lemma {:induction false} EntriesCallFree(entries: seq<(string, Value)>, i: nat, invoke: Invoke)
    requires i <= |entries|
    requires CallFree(Dict(entries))
    ensures ResolveFrom(entries, i, invoke) == Ok(entries[i..])
    decreases Dict(entries), 0, |entries| - i
  {
    if i < |entries| {
      assert entries[i] in entries;
      CallFreeUnchanged(entries[i].1, invoke);
      EntriesCallFree(entries, i + 1, invoke);
      assert [(entries[i].0, entries[i].1)] + entries[i + 1..] == entries[i..];
    } else {
      assert entries[i..] == [];
    }
  }

  /** A rendered call, alone or followed by more text, is replaced by the
      result of the pool method it names. */
  lemma CallDispatched(name: string, q: char, arg: string, tail: string, invoke: Invoke)
    requires WordName(name) && PlainArg(arg) && (q == '\'' || q == '"')
    ensures ResolveValue(Str(Render(name, q, arg) + tail), invoke) == invoke(name, arg)
  {
    ParseCallRender(name, q, arg, tail);
  }

  /** With pool methods that never fail, a list fails exactly when it holds
      something other than a text, and then with `TypeError`. */
  lemma {:induction false} ItemsFail(items: seq<Value>, invoke: Invoke)
    requires forall n, a :: invoke(n, a).Ok?
    ensures ResolveItems(items, invoke).Err? <==> exists j :: 0 <= j < |items| && !items[j].Str?
    ensures ResolveItems(items, invoke).Err? ==> ResolveItems(items, invoke).error == TypeError
    decreases |items|
  {
    if |items| > 0 {
      ItemsFail(items[1..], invoke);
      if exists j :: 0 <= j < |items[1..]| && !items[1..][j].Str? {
        var j :| 0 <= j < |items[1..]| && !items[1..][j].Str?;
        assert !items[j + 1].Str?;
      }
      if exists j :: 0 <= j < |items| && !items[j].Str? {
        var j :| 0 <= j < |items| && !items[j].Str?;
        if j > 0 {
          assert items[1..][j - 1] == items[j];
        }
      }
    }
  }
}

=== FILE: resources.dfy ===
/** `Resources.lookup` and `Resources.allocate` over a resource pool: an
    ordered mapping from resource key to the MAC of the node holding it, or
    `None` while the resource is free. Loading and storing the pool file is
    not modelled: the pool is passed in and the updated pool returned. */
module Resources {
  import opened Base

  type Pool = seq<(string, Option<string>)>

  /** The position of the first entry whose value equals `v`. */
  function FirstIndex(pool: Pool, v: Option<string>): (r: Option<nat>)
    ensures r.Some? ==> r.value < |pool| && pool[r.value].1 == v
    ensures r.Some? ==> forall j :: 0 <= j < r.value ==> pool[j].1 != v
    ensures r.None? ==> forall j :: 0 <= j < |pool| ==> pool[j].1 != v
    decreases |pool|
  {
    if |pool| == 0 then None
    else if pool[0].1 == v then Some(0)
    else
      match FirstIndex(pool[1..], v)
      case None => None
      case Some(i) => Some(i + 1)
  }

  /** `Resources.lookup(pool, node)`: the first key held by `mac`. A node
      without a MAC (`None`) compares equal to a free entry, so it is given
      the first free key. */
  function Lookup(pool: Pool, mac: Option<string>): (r: Option<string>)
    ensures r.Some? <==> exists i :: 0 <= i < |pool| && pool[i].1 == mac
    ensures r.Some? ==> exists i :: 0 <= i < |pool| && pool[i] == (r.value, mac)
                                     && forall j :: 0 <= j < i ==> pool[j].1 != mac
  {
    match FirstIndex(pool, mac)
    case None => None
    case Some(i) => Some(pool[i].0)
  }

  /** A successful allocation: the key handed out and the pool as stored. */
  datatype Allocation = Allocation(key: string, pool: Pool)

  /** The part of `allocate` after the lookup misses: the first free entry
      is given to `mac`, or `ResourcesError` when there is none. */
  function Claim(pool: Pool, mac: Option<string>): (r: Result<Allocation, Error>)
    ensures r.Err? <==> forall j :: 0 <= j < |pool| ==> pool[j].1.Some?
    ensures r.Err? ==> r.error == ResourcesError
    ensures r.Ok? ==> |r.value.pool| == |pool|
    ensures r.Ok? ==> exists i :: 0 <= i < |pool| && pool[i].1 == None && (forall j :: 0 <= j < i ==> pool[j].1.Some?)
                                  && r.value == Allocation(pool[i].0, pool[i := (pool[i].0, mac)])
    ensures r.Ok? ==> exists i :: 0 <= i < |r.value.pool| && r.value.pool[i] == (r.value.key, mac)
  {
    match FirstIndex(pool, None)
    case None => Err(ResourcesError)
    case Some(i) =>
      assert pool[i := (pool[i].0, mac)][i] == (pool[i].0, mac);
      Ok(Allocation(pool[i].0, pool[i := (pool[i].0, mac)]))
  }

  /** `Resources.allocate(pool, node)` as written: `if match:` treats a
      found key that is the empty string as not found. Either way the key
      handed out is held by `mac` in the pool as stored, and the pool is
      either left alone or has exactly one free entry taken. */
  function Allocate(pool: Pool, mac: Option<string>): (r: Result<Allocation, Error>)
    ensures r.Err? ==> r.error == ResourcesError && forall j :: 0 <= j < |pool| ==> pool[j].1.Some?
    ensures r.Ok? ==> exists i :: 0 <= i < |r.value.pool| && r.value.pool[i] == (r.value.key, mac)
    ensures r.Ok? ==> r.value.pool == pool || exists i :: 0 <= i < |pool| && pool[i].1 == None
                                                && r.value == Allocation(pool[i].0, pool[i := (pool[i].0, mac)])
  {
    match Lookup(pool, mac)
    case Some(k) => if k != "" then Ok(Allocation(k, pool)) else Claim(pool, mac)
    case None => Claim(pool, mac)
  }

  /** `allocate` with the found key compared with `None`. */
  function AllocateChecked(pool: Pool, mac: Option<string>): (r: Result<Allocation, Error>)
    ensures r.Ok? ==> exists i :: 0 <= i < |r.value.pool| && r.value.pool[i] == (r.value.key, mac)
  {
    match Lookup(pool, mac)
    case Some(k) => Ok(Allocation(k, pool))
    case None => Claim(pool, mac)
  }

  predicate NonEmptyKeys(pool: Pool) {
    forall i :: 0 <= i < |pool| ==> pool[i].0 != ""
  }

  /** With no empty-string key the two agree. */
  lemma AllocateAgrees(pool: Pool, mac: Option<string>)
    requires NonEmptyKeys(pool)
    ensures Allocate(pool, mac) == AllocateChecked(pool, mac)
  {
    if Lookup(pool, mac).Some? {
      var i :| 0 <= i < |pool| && pool[i] == (Lookup(pool, mac).value, mac);
    }
  }

  /** A node already holding a key gets that key back and the pool is not
      written. */
  lemma AllocateExisting(pool: Pool, mac: Option<string>, i: nat)
    requires i < |pool| && pool[i].1 == mac
    requires forall j :: 0 <= j < i ==> pool[j].1 != mac
    ensures AllocateChecked(pool, mac) == Ok(Allocation(pool[i].0, pool))
  {
    assert FirstIndex(pool, mac) == Some(i);
  }

  /** A node holding no key gets the first free key; that entry now holds
      the MAC and every other entry is unchanged. */
  lemma AllocateFresh(pool: Pool, mac: Option<string>)
    requires forall j :: 0 <= j < |pool| ==> pool[j].1 != mac
    requires AllocateChecked(pool, mac).Ok?
    ensures var a := AllocateChecked(pool, mac).value;
      exists i :: 0 <= i < |pool| && pool[i].1 == None
        && (forall j :: 0 <= j < i ==> pool[j].1.Some?)
        && a.key == pool[i].0
        && a.pool == pool[i := (pool[i].0, mac)]
  {
    var i := FirstIndex(pool, None).value;
    assert forall j :: 0 <= j < i ==> pool[j].1.Some?;
  }

  /** Allocation fails exactly when the node holds no key and no key is
      free, and then with `ResourcesError`. */
  lemma AllocateExhausted(pool: Pool, mac: Option<string>)
    ensures AllocateChecked(pool, mac).Err? <==>
              (forall j :: 0 <= j < |pool| ==> pool[j].1 != mac) && (forall j :: 0 <= j < |pool| ==> pool[j].1.Some?)
    ensures AllocateChecked(pool, mac).Err? ==> AllocateChecked(pool, mac).error == ResourcesError
  {
  }

  /** After allocating, looking the node up finds the key it was given. */
  lemma AllocateThenLookup(pool: Pool, mac: Option<string>)
    requires AllocateChecked(pool, mac).Ok?
    ensures Lookup(AllocateChecked(pool, mac).value.pool, mac) == Some(AllocateChecked(pool, mac).value.key)
  {
    if Lookup(pool, mac).None? {
      var i := FirstIndex(pool, None).value;
      var p' := pool[i := (pool[i].0, mac)];
      forall j | 0 <= j < i
        ensures p'[j].1 != mac
      {
      }
      assert FirstIndex(p', mac) == Some(i) by {
        FirstIndexAt(p', mac, i);
      }
    }
  }

  lemma FirstIndexAt(pool: Pool, v: Option<string>, i: nat)
    requires i < |pool| && pool[i].1 == v
    requires forall j :: 0 <= j < i ==> pool[j].1 != v
    ensures FirstIndex(pool, v) == Some(i)
  {
    var r := FirstIndex(pool, v);
    assert r.Some?;
    assert !(r.value < i) && !(r.value > i);
  }

  /** Allocating twice for the same node hands out the same key and leaves
      the pool as the first call stored it. */
  lemma AllocateIdempotent(pool: Pool, mac: Option<string>)
    requires AllocateChecked(pool, mac).Ok?
    ensures var a := AllocateChecked(pool, mac).value;
      AllocateChecked(a.pool, mac) == Ok(a)
  {
    AllocateThenLookup(pool, mac);
  }

  /** A node without a MAC compares equal to a free entry: it is handed the
      first free key, the pool is not written and the key stays free. */
  lemma AllocateWithoutMac(pool: Pool)
    ensures AllocateChecked(pool, None).Ok? <==> exists i :: 0 <= i < |pool| && pool[i].1 == None
    ensures AllocateChecked(pool, None).Ok? ==>
              var a := AllocateChecked(pool, None).value;
              && a.pool == pool
              && exists i :: 0 <= i < |pool| && pool[i] == (a.key, None) && forall j :: 0 <= j < i ==> pool[j].1.Some?
  {
    match FirstIndex(pool, None)
    case None =>
    case Some(i) =>
      assert pool[i] == (Lookup(pool, None).value, None);
  }

  /** No MAC holds two keys. */
  predicate UniqueHolders(pool: Pool) {
    forall i, j :: 0 <= i < j < |pool| && pool[i].1.Some? ==> pool[i].1 != pool[j].1
  }

  /** Allocation keeps every MAC on at most one key. */
  lemma AllocateKeepsUnique(pool: Pool, mac: Option<string>)
    requires UniqueHolders(pool)
    requires AllocateChecked(pool, mac).Ok?
    ensures UniqueHolders(AllocateChecked(pool, mac).value.pool)
  {
    if Lookup(pool, mac).None? {
      var i := FirstIndex(pool, None).value;
      var p' := pool[i := (pool[i].0, mac)];
      forall a, b | 0 <= a < b < |p'| && p'[a].1.Some?
        ensures p'[a].1 != p'[b].1
      {
        if a != i && b != i {
          assert p'[a] == pool[a] && p'[b] == pool[b];
        }
      }
    }
  }

  /** As written, a node whose key is the empty string is allocated a
      second key, so its MAC ends up held twice. */
  lemma EmptyKeyAllocatedTwice()
    ensures Allocate([("", None), ("a", None)], Some("m")) ==
              Ok(Allocation("", [("", Some("m")), ("a", None)]))
    ensures Allocate([("", Some("m")), ("a", None)], Some("m")) ==
              Ok(Allocation("a", [("", Some("m")), ("a", Some("m"))]))
    ensures !UniqueHolders([("", Some("m")), ("a", Some("m"))])
  {
    var p0: Pool := [("", None), ("a", None)];
    assert FirstIndex(p0, Some("m")) == None;
    assert FirstIndex(p0, None) == Some(0);
    var p1: Pool := [("", Some("m")), ("a", None)];
    assert p0[0 := (p0[0].0, Some("m"))] == p1;
    assert Claim(p0, Some("m")) == Ok(Allocation("", p1));
    assert FirstIndex(p1, Some("m")) == Some(0);
    assert FirstIndex(p1[1..], None) == Some(0);
    assert FirstIndex(p1, None) == Some(1);
    var p2: Pool := [("", Some("m")), ("a", Some("m"))];
    assert p1[1 := (p1[1].0, Some("m"))] == p2;
    assert Lookup(p1, Some("m")) == Some("");
    assert Claim(p1, Some("m")) == Ok(Allocation("a", p2));
    assert p2[0].1.Some? && p2[0].1 == p2[1].1;
  }
}

=== FILE: scenarios.dfy ===
/** Concrete cases of the matcher: the documented `spine1` uplink, an
    interface that must have no neighbour, the working-table reading of the
    no-neighbour check, and a pattern that raises after updating the
    topology's variables. */
module Scenarios {
  import opened Base
  import opened Text
  import opened Functions
  import opened Neighbors
  import opened Interfaces
  import opened Patterns
  import Topology

  /** `any: exact('spine1'):any`. */
  const Uplink: InterfacePattern :=
    InterfacePattern("any", ["any"], Some("exact('spine1')"), Some("any"), ["any"], TagList([]))

  const SpineTable: Table := [("Ethernet3", [Neighbor("spine1", "Ethernet10")])]

  lemma UplinkWellFormed()
    ensures WellFormed(Uplink)
  {
    assert !StartsWith("any", "Ethernet");
  }

  lemma UplinkAccepts(vars: map<string, string>, regex: RegexEngine)
    requires "exact('spine1')" !in vars
    ensures MatchDevice(Uplink, "spine1", vars, regex) == Ok(true)
  {
    assert WordName("exact");
    assert PlainArg("spine1");
    assert Render("exact", '\'', "spine1") == "exact('spine1')";
    DispatchByName(Uplink, "exact", '\'', "spine1", "spine1", vars, regex);
  }

  /** The uplink pattern claims `Ethernet3`, the one interface whose
      neighbour is `spine1`. */
  lemma SpineMatches(vars: map<string, string>, regex: RegexEngine)
    requires "exact('spine1')" !in vars
    ensures MatchNeighbors(Uplink, SpineTable, vars, regex) == Ok(["Ethernet3"])
  {
    UplinkAccepts(vars, regex);
    assert Keys(SpineTable) == ["Ethernet3"];
    assert Get(SpineTable, "Ethernet3") == [Neighbor("spine1", "Ethernet10")];
    assert NeighborAccepted(Uplink, [Neighbor("spine1", "Ethernet10")], vars, regex) == Ok(true);
    assert ScanCandidates(Uplink, SpineTable, ["Ethernet3"][1..], vars, regex) == Ok([]);
    assert ScanCandidates(Uplink, SpineTable, ["Ethernet3"], vars, regex) == Ok(["Ethernet3"]);
  }

  /** Claiming `Ethernet3` removes it: a second uplink line finds nothing
      left, so a pattern listing the line twice does not match. */
  lemma SpineConsumed(regex: RegexEngine)
    ensures MatchFrom([Uplink], map[], SpineTable, map[], regex) == Ok(Outcome(true, map[]))
    ensures MatchFrom([Uplink, Uplink], map[], SpineTable, map[], regex) == Ok(Outcome(false, map[]))
  {
    var none: map<string, string> := map[];
    assert none + none == none;
    SpineMatches(none, regex);
    assert Remove(SpineTable, "Ethernet3") == [];
    assert [Uplink, Uplink][1..] == [Uplink];
    assert MatchNeighbors(Uplink, [], none, regex) == Ok([]);
  }

  /** `Management1: none`. */
  const NoManagement: InterfacePattern := InterfacePattern("Management1", ["Management1"], None, None, [], TagList([]))

  /** A node without a `Management1` entry matches a pattern that starts
      with `Management1: none`, whatever the pattern lists after it. */
  lemma ManagementAbsent(more: seq<InterfacePattern>, patVars: map<string, string>, t: Table,
                         vars: map<string, string>, regex: RegexEngine)
    requires "Management1" !in Keys(t)
    ensures MatchFrom([NoManagement] + more, patVars, t, vars, regex) == Ok(Outcome(true, vars))
  {
    assert ([NoManagement] + more)[0] == NoManagement;
  }

  /** `any: any` followed by `Ethernet1: none`: the first line claims
      `Ethernet1`, so the check of the second reads the shrunk table and the
      pattern matches, although the node's own table has `Ethernet1`. */
  lemma NoneCheckReadsWorkingTable(regex: RegexEngine)
    ensures var anyLine := InterfacePattern("any", ["any"], Some("any"), Some("any"), ["any"], TagList([]));
            var absent := InterfacePattern("Ethernet1", ["Ethernet1"], None, None, [], TagList([]));
            var t := [("Ethernet1", [Neighbor("leaf", "Ethernet2")])];
      && "Ethernet1" in Keys(t)
      && MatchFrom([anyLine, absent], map[], t, map[], regex) == Ok(Outcome(true, map[]))
  {
    var anyLine := InterfacePattern("any", ["any"], Some("any"), Some("any"), ["any"], TagList([]));
    var absent := InterfacePattern("Ethernet1", ["Ethernet1"], None, None, [], TagList([]));
    var t := [("Ethernet1", [Neighbor("leaf", "Ethernet2")])];
    var none: map<string, string> := map[];
    assert none + none == none;
    assert Keys(t) == ["Ethernet1"];
    assert NeighborAccepted(anyLine, t[0].1, none, regex) == Ok(true);
    assert ScanCandidates(anyLine, t, ["Ethernet1"][1..], none, regex) == Ok([]);
    assert MatchNeighbors(anyLine, t, none, regex) == Ok(["Ethernet1"]);
    assert Remove(t, "Ethernet1") == [];
    assert [anyLine, absent][1..] == [absent];
  }

  /** `any: bogus('x')`: a function name `Functions` lacks. */
  const Bogus: InterfacePattern :=
    InterfacePattern("any", ["any"], Some("bogus('x')"), Some("any"), ["any"], TagList([]))

  /** A pattern with variables `{v: spine1}` whose only line names an
      unknown function: matching a node with a neighbour raises
      `AttributeError`, and the topology keeps `v` all the same, because
      `variables.update` ran before `match_neighbors` raised. */
  lemma RaisingPatternKeepsVariables(regex: RegexEngine)
    ensures var a := Pattern("a", "d", None, map["v" := "spine1"], [Bogus]);
            var top := Topology.Topology(map[], [a], map[]);
            var r := Topology.MatchTopology(top, Node(None, Some("m"), None, None, SpineTable), regex);
      r.0 == Err(AttributeError) && r.1.variables == map["v" := "spine1"]
  {
    var a := Pattern("a", "d", None, map["v" := "spine1"], [Bogus]);
    var n := Node(None, Some("m"), None, None, SpineTable);
    var none: map<string, string> := map[];
    var vars := map["v" := "spine1"];
    assert none + a.variables == vars;
    assert WordName("bogus") && PlainArg("x");
    assert Render("bogus", '\'', "x") == "bogus('x')";
    DispatchByName(Bogus, "bogus", '\'', "x", "spine1", vars, regex);
    assert DeviceFault(Bogus, vars, regex) == Some(AttributeError);
    var cands := Candidates(Bogus, SpineTable);
    assert cands == ["Ethernet3"];
    assert |Get(SpineTable, cands[0])| > 0;
    ScanFaulty(Bogus, SpineTable, cands, vars, regex);
    assert MatchNeighbors(Bogus, SpineTable, vars, regex) == Err(AttributeError);
    assert MatchNode(a, n, none, regex) == Err(AttributeError);
  }
}

=== FILE: text.dfy ===
/** Character classes and the Python `str` operations the modelled code
    relies on: `split`, `startswith`, `in`, `strip`, `int()` and `'%s' % n`. */
module Text {
  import opened Base

  /** `[a-zA-Z]`. */
  predicate IsLetter(c: char) {
    'a' <= c <= 'z' || 'A' <= c <= 'Z'
  }

  predicate IsDigit(c: char) {
    '0' <= c <= '9'
  }

  /** `\w` in a Python 2 pattern compiled without LOCALE or UNICODE. */
  predicate IsWordChar(c: char) {
    IsLetter(c) || IsDigit(c) || c == '_'
  }

  /** `string.whitespace` (`\s`): space, tab, line feed, vertical tab,
      form feed, carriage return. */
  predicate IsSpace(c: char) {
    c == ' ' || 9 <= c as int <= 13
  }

  predicate AllDigits(s: string) {
    forall i :: 0 <= i < |s| ==> IsDigit(s[i])
  }

  predicate NoLetters(s: string) {
    forall c :: c in s ==> !IsLetter(c)
  }

  /** `s.startswith(prefix)`. */
  predicate StartsWith(s: string, prefix: string) {
    |prefix| <= |s| && s[..|prefix|] == prefix
  }

  /** Python's `sub in s` on two strings. */
  predicate IsSubstring(sub: string, s: string)
    decreases |s|
  {
    StartsWith(s, sub) || (|s| > 0 && IsSubstring(sub, s[1..]))
  }

  /** `sub` occurs in `s` starting at offset `i`. */
  predicate OccursAt(sub: string, s: string, i: int) {
    0 <= i <= |s| - |sub| && s[i..i + |sub|] == sub
  }

  /** `sub in s` holds exactly when `sub` occurs at some offset of `s`. */
  lemma {:induction false} IsSubstringAt(sub: string, s: string)
    ensures IsSubstring(sub, s) <==> exists i :: OccursAt(sub, s, i)
    decreases |s|
  {
    if StartsWith(s, sub) {
      assert OccursAt(sub, s, 0);
    } else if |s| > 0 {
      IsSubstringAt(sub, s[1..]);
      if IsSubstring(sub, s) {
        var i :| OccursAt(sub, s[1..], i);
        assert s[1..][i..i + |sub|] == s[i + 1..i + 1 + |sub|];
        assert OccursAt(sub, s, i + 1);
      }
      forall i | OccursAt(sub, s, i)
        ensures IsSubstring(sub, s)
      {
        if i > 0 {
          assert s[1..][i - 1..i - 1 + |sub|] == s[i..i + |sub|];
          assert OccursAt(sub, s[1..], i - 1);
        }
      }
    }
  }

  /** `s.split(sep)` for a one-character separator: the pieces between
      consecutive separators, always at least one. */
  function SplitOn(s: string, sep: char): (parts: seq<string>)
    ensures |parts| >= 1
    ensures forall i :: 0 <= i < |parts| ==> sep !in parts[i]
    decreases |s|
  {
    if |s| == 0 then [""]
    else
      var rest := SplitOn(s[1..], sep);
      if s[0] == sep then [""] + rest else [[s[0]] + rest[0]] + rest[1..]
  }

  /** `sep.join(parts)`. */
  function JoinOn(parts: seq<string>, sep: char): string
    decreases |parts|
  {
    if |parts| == 0 then ""
    else if |parts| == 1 then parts[0]
    else parts[0] + [sep] + JoinOn(parts[1..], sep)
  }

  /** Joining the pieces of a split gives back the text. */
  lemma {:induction false} JoinSplit(s: string, sep: char)
    ensures JoinOn(SplitOn(s, sep), sep) == s
    decreases |s|
  {
    if |s| > 0 {
      JoinSplit(s[1..], sep);
      var rest := SplitOn(s[1..], sep);
      if s[0] == sep {
        assert s == [sep] + s[1..];
      } else {
        if |rest| == 1 {
          assert s == [s[0]] + s[1..];
        } else {
          assert JoinOn(rest, sep) == rest[0] + [sep] + JoinOn(rest[1..], sep);
          assert s == [s[0]] + s[1..];
        }
      }
    }
  }

  lemma {:induction false} SplitWithout(s: string, sep: char)
    requires sep !in s
    ensures SplitOn(s, sep) == [s]
    decreases |s|
  {
    if |s| > 0 {
      SplitWithout(s[1..], sep);
      assert s == [s[0]] + s[1..];
    }
  }

  lemma {:induction false} SplitFirst(p: string, sep: char, t: string)
    requires sep !in p
    ensures SplitOn(p + [sep] + t, sep) == [p] + SplitOn(t, sep)
    decreases |p|
  {
    var s := p + [sep] + t;
    if |p| == 0 {
      assert s[1..] == t;
    } else {
      assert s[1..] == p[1..] + [sep] + t;
      SplitFirst(p[1..], sep, t);
      assert [p[0]] + p[1..] == p;
    }
  }

  /** Splitting the join of separator-free pieces gives back the pieces. */
  lemma {:induction false} SplitJoin(parts: seq<string>, sep: char)
    requires |parts| >= 1
    requires forall i :: 0 <= i < |parts| ==> sep !in parts[i]
    ensures SplitOn(JoinOn(parts, sep), sep) == parts
    decreases |parts|
  {
    if |parts| == 1 {
      SplitWithout(parts[0], sep);
    } else {
      SplitJoin(parts[1..], sep);
      SplitFirst(parts[0], sep, JoinOn(parts[1..], sep));
      assert [parts[0]] + parts[1..] == parts;
    }
  }

  /** Every character of a join is the separator or comes from a piece. */
  lemma {:induction false} JoinChars(parts: seq<string>, sep: char, c: char)
    requires c in JoinOn(parts, sep)
    ensures c == sep || exists i :: 0 <= i < |parts| && c in parts[i]
    decreases |parts|
  {
    if |parts| > 1 {
      var rest := JoinOn(parts[1..], sep);
      if c !in parts[0] && c != sep {
        assert c in rest;
        JoinChars(parts[1..], sep, c);
        var i :| 0 <= i < |parts[1..]| && c in parts[1..][i];
        assert c in parts[i + 1];
      } else if c in parts[0] {
        assert c in parts[0];
      }
    }
  }

  function DigitChar(d: nat): char
    requires d < 10
  {
    ('0' as int + d) as char
  }

  function DigitValue(c: char): nat
    requires IsDigit(c)
  {
    c as int - '0' as int
  }

  /** The number a string of decimal digits denotes. */
  function DigitsValue(s: string): nat
    requires AllDigits(s)
    decreases |s|
  {
    if |s| == 0 then 0 else DigitsValue(s[..|s| - 1]) * 10 + DigitValue(s[|s| - 1])
  }

  /** `'%s' % n`: the decimal rendering of a non-negative integer. */
  function Dec(n: nat): (s: string)
    ensures |s| >= 1 && AllDigits(s)
    ensures DigitsValue(s) == n
  {
    if n < 10 then [DigitChar(n)]
    else
      var s := Dec(n / 10) + [DigitChar(n % 10)];
      assert s[..|s| - 1] == Dec(n / 10);
      s
  }

  function TrimLeft(s: string): string
    decreases |s|
  {
    if |s| > 0 && IsSpace(s[0]) then TrimLeft(s[1..]) else s
  }

  function TrimRight(s: string): string
    decreases |s|
  {
    if |s| > 0 && IsSpace(s[|s| - 1]) then TrimRight(s[..|s| - 1]) else s
  }

  /** `s.strip()`. */
  function Trim(s: string): string {
    TrimRight(TrimLeft(s))
  }

  /** Python 2's `int(s)` on a `str` without a minus sign: surrounding
      whitespace, an optional `+` that may itself be followed by whitespace,
      and at least one decimal digit; anything else raises `ValueError`,
      modelled as `None`. */
  function ParseInt(s: string): Option<nat>
    requires '-' !in s
  {
    var t := Trim(s);
    var u := if |t| > 0 && t[0] == '+' then TrimLeft(t[1..]) else t;
    if |u| > 0 && AllDigits(u) then Some(DigitsValue(u)) else None
  }

  predicate AllSpace(w: string) {
    forall i :: 0 <= i < |w| ==> IsSpace(w[i])
  }

  lemma {:induction false} TrimLeftSpaces(w: string, s: string)
    requires AllSpace(w)
    ensures TrimLeft(w + s) == TrimLeft(s)
    decreases |w|
  {
    if |w| > 0 {
      assert (w + s)[0] == w[0];
      assert (w + s)[1..] == w[1..] + s;
      TrimLeftSpaces(w[1..], s);
    } else {
      assert w + s == s;
    }
  }

  lemma {:induction false} TrimRightSpaces(s: string, w: string)
    requires AllSpace(w)
    ensures TrimRight(s + w) == TrimRight(s)
    decreases |w|
  {
    if |w| > 0 {
      assert (s + w)[|s + w| - 1] == w[|w| - 1];
      assert (s + w)[..|s + w| - 1] == s + w[..|w| - 1];
      TrimRightSpaces(s, w[..|w| - 1]);
    } else {
      assert s + w == s;
    }
  }

  /** A digit string has no letters, commas or dashes. */
  lemma DigitsArePlain(s: string)
    requires AllDigits(s)
    ensures NoLetters(s) && ',' !in s && '-' !in s
  {
    forall c | c in s
      ensures IsDigit(c)
    {
      var i :| 0 <= i < |s| && s[i] == c;
    }
  }

  /** `int('%s' % n) == n`. */
  lemma ParseIntDec(n: nat)
    ensures '-' !in Dec(n)
    ensures ParseInt(Dec(n)) == Some(n)
  {
    var s := Dec(n);
    assert forall i :: 0 <= i < |s| ==> s[i] != '-';
    assert !IsSpace(s[0]) && !IsSpace(s[|s| - 1]);
    assert TrimLeft(s) == s;
    assert Trim(s) == s;
  }

  /** `int(w1 + '+' + w2 + '%s' % n + w3) == n` for whitespace `w1`, `w2`,
      `w3`: whitespace may surround the number and follow the sign. */
  lemma ParseIntSigned(n: nat, w1: string, w2: string, w3: string)
    requires AllSpace(w1) && AllSpace(w2) && AllSpace(w3)
    ensures '-' !in w1 + "+" + w2 + Dec(n) + w3
    ensures ParseInt(w1 + "+" + w2 + Dec(n) + w3) == Some(n)
  {
    var d := Dec(n);
    var core := "+" + w2 + d;
    var s := w1 + "+" + w2 + d + w3;
    assert forall i :: 0 <= i < |d| ==> d[i] != '-';
    assert forall i :: 0 <= i < |s| ==> s[i] != '-' by {
      forall i | 0 <= i < |s| ensures s[i] != '-' {
        if i < |w1| { assert s[i] == w1[i]; }
        else if i == |w1| { assert s[i] == '+'; }
        else if i < |w1| + 1 + |w2| { assert s[i] == w2[i - |w1| - 1]; }
        else if i < |w1| + 1 + |w2| + |d| { assert s[i] == d[i - |w1| - 1 - |w2|]; }
        else { assert s[i] == w3[i - |w1| - 1 - |w2| - |d|]; }
      }
    }
    assert s == w1 + (core + w3);
    TrimLeftSpaces(w1, core + w3);
    assert TrimLeft(core + w3) == core + w3;
    TrimRightSpaces(core, w3);
    assert core[|core| - 1] == d[|d| - 1];
    assert TrimRight(core) == core;
    assert Trim(s) == core;
    assert core[1..] == w2 + d;
    TrimLeftSpaces(w2, d);
    assert TrimLeft(d) == d;
  }
}

=== FILE: topology.dfy ===
/** `Topology`: the catalogue of patterns built from a topology document,
    with node-bound patterns kept by device identity and global patterns in
    document order, and the matching of a node against it. */
module Topology {
  import opened Base
  import opened Functions
  import opened Neighbors
  import opened Interfaces
  import opened Patterns

  /** `Topology`: `patterns['globals']` and `patterns['nodes']`. A
      node-bound pattern is keyed by its `node` value, which may be `None`. */
  datatype Topology = Topology(
    variables: map<string, string>,
    globals: seq<Pattern>,
    nodes: map<Option<string>, Pattern>)

  /** `Topology()`. */
  const Empty: Topology := Topology(map[], [], map[])

  /** The topology-level substitution of `add_pattern`, applied to every
      interface pattern of a new pattern: only the device changes, and only
      for a device other than `None` and `any` that names a variable (no
      fallback for an empty-string value here). */
  function Substitute(ips: seq<InterfacePattern>, vars: map<string, string>): (r: seq<InterfacePattern>)
    ensures |r| == |ips|
    ensures forall i :: 0 <= i < |ips| ==>
              r[i] == ips[i].(device := PatternSubstitution(ips[i].device, vars))
    decreases |ips|
  {
    if |ips| == 0 then []
    else [ips[0].(device := PatternSubstitution(ips[0].device, vars))] + Substitute(ips[1..], vars)
  }

  /** Neither reserved word is ever replaced, and a device that names no
      variable is left alone. */
  lemma SubstituteKeeps(ips: seq<InterfacePattern>, vars: map<string, string>)
    ensures forall i :: 0 <= i < |ips| && (ips[i].device == None || ips[i].device == Some("any")) ==>
              Substitute(ips, vars)[i] == ips[i]
    ensures forall i :: 0 <= i < |ips| && ips[i].device.Some? && ips[i].device.value !in vars ==>
              Substitute(ips, vars)[i] == ips[i]
    ensures forall i :: 0 <= i < |ips| ==> WellFormed(ips[i]) ==> WellFormed(Substitute(ips, vars)[i])
  {
  }

  /** The body of `add_pattern`'s `try`: the pattern as stored, `None` when
      a `TypeError` makes it skip the entry, or the error that escapes. */
  function Adopt(raw: RawPattern, vars: map<string, string>, split: ColonSplit): (r: Result<Option<Pattern>, Error>)
    ensures r == Ok(None) <==> NewPattern(raw, split) == Err(TypeError)
    ensures r.Err? <==> NewPattern(raw, split).Err? && NewPattern(raw, split).error != TypeError
  {
    match NewPattern(raw, split)
    case Err(e) => if e == TypeError then Ok(None) else Err(e)
    case Ok(p) => Ok(Some(p.(interfaces := Substitute(p.interfaces, vars))))
  }

  /** The entry carries a `node` key. */
  predicate Bound(raw: RawPattern) {
    raw.RawPattern? && raw.node.Some?
  }

  /** `Topology.add_pattern(entry)`. */
  function AddPattern(top: Topology, raw: RawPattern, split: ColonSplit): (r: Result<Topology, Error>)
    ensures NewPattern(raw, split) == Err(TypeError) ==> r == Ok(top)
    ensures r.Ok? ==> r.value.variables == top.variables
    ensures r.Ok? && Bound(raw) ==> r.value.globals == top.globals
    ensures r.Ok? && !Bound(raw) ==> r.value.nodes == top.nodes
    ensures r.Ok? && !Bound(raw) && r.value != top ==> |r.value.globals| == |top.globals| + 1
  {
    var adopted :- Adopt(raw, top.variables, split);
    match adopted
    case None => Ok(top)
    case Some(p) =>
      if Bound(raw) then Ok(top.(nodes := top.nodes[p.node := p]))
      else Ok(top.(globals := top.globals + [p]))
  }

  /** The entries added in order; the first error that escapes stops it. */
  function AddAll(top: Topology, raws: seq<RawPattern>, split: ColonSplit): (r: Result<Topology, Error>)
    ensures r.Ok? ==> r.value.variables == top.variables
    decreases |raws|
  {
    if |raws| == 0 then Ok(top)
    else
      var top' :- AddPattern(top, raws[0], split);
      AddAll(top', raws[1..], split)
  }

  /** What one entry without a `node` key adds to the global patterns. */
  function UnboundOne(raw: RawPattern, vars: map<string, string>, split: ColonSplit): seq<Pattern> {
    match Adopt(raw, vars, split)
    case Ok(Some(p)) => if Bound(raw) then [] else [p]
    case _ => []
  }

  /** Reference definition: the patterns the entries without a `node` key
      contribute, in document order. */
  function UnboundOf(raws: seq<RawPattern>, vars: map<string, string>, split: ColonSplit): seq<Pattern>
    decreases |raws|
  {
    if |raws| == 0 then [] else UnboundOne(raws[0], vars, split) + UnboundOf(raws[1..], vars, split)
  }

  lemma AddPatternGlobals(top: Topology, raw: RawPattern, split: ColonSplit)
    requires AddPattern(top, raw, split).Ok?
    ensures AddPattern(top, raw, split).value.globals == top.globals + UnboundOne(raw, top.variables, split)
  {
    assert top.globals + [] == top.globals;
  }

  /** Global patterns keep their document order and are only ever appended. */
  lemma {:induction false} AddAllGlobals(top: Topology, raws: seq<RawPattern>, split: ColonSplit)
    requires AddAll(top, raws, split).Ok?
    ensures AddAll(top, raws, split).value.globals == top.globals + UnboundOf(raws, top.variables, split)
    decreases |raws|
  {
    if |raws| > 0 {
      var top' := AddPattern(top, raws[0], split).value;
      AddPatternGlobals(top, raws[0], split);
      AddAllGlobals(top', raws[1..], split);
      assert AddAll(top, raws, split) == AddAll(top', raws[1..], split);
      var one := UnboundOne(raws[0], top.variables, split);
      var rest := UnboundOf(raws[1..], top.variables, split);
      assert UnboundOf(raws, top.variables, split) == one + rest;
      assert (top.globals + one) + rest == top.globals + (one + rest);
    }
  }

  /** Reference definition: the pattern stored under identity `k` by the
      last entry bound to `k` that is not skipped. */
  function LastBound(raws: seq<RawPattern>, k: Option<string>, vars: map<string, string>, split: ColonSplit)
    : Option<Pattern>
    decreases |raws|
  {
    if |raws| == 0 then None
    else
      var later := LastBound(raws[1..], k, vars, split);
      if later.Some? then later
      else
        match Adopt(raws[0], vars, split)
        case Ok(Some(p)) => if Bound(raws[0]) && p.node == k then Some(p) else None
        case _ => None
  }

  /** A later pattern bound to the same identity replaces an earlier one;
      identities no entry binds keep their pattern. */
  lemma {:induction false} AddAllNodes(top: Topology, raws: seq<RawPattern>, split: ColonSplit, k: Option<string>)
    requires AddAll(top, raws, split).Ok?
    ensures var r := AddAll(top, raws, split).value;
            var last := LastBound(raws, k, top.variables, split);
      && (k in r.nodes <==> last.Some? || k in top.nodes)
      && (last.Some? ==> r.nodes[k] == last.value)
      && (last.None? && k in top.nodes ==> r.nodes[k] == top.nodes[k])
    decreases |raws|
  {
    if |raws| > 0 {
      var top' := AddPattern(top, raws[0], split).value;
      AddAllNodes(top', raws[1..], split, k);
    }
  }

  /** The entry bound to an identity by a second `add_pattern` call wins. */
  lemma Overwrite(top: Topology, first: RawPattern, second: RawPattern, split: ColonSplit)
    requires Bound(first) && Bound(second) && first.node == second.node
    requires NewPattern(first, split).Ok? && NewPattern(second, split).Ok?
    ensures AddPattern(top, first, split).Ok?
    ensures var mid := AddPattern(top, first, split).value;
      && AddPattern(mid, second, split).Ok?
      && AddPattern(mid, second, split).value.nodes[first.node.value] ==
           Adopt(second, top.variables, split).value.value
  {
  }

  /** The parsed topology document: its `variables` mapping (empty when
      missing or falsy) and its `patterns` list (`None` when missing). */
  datatype Document = Document(variables: map<string, string>, patterns: Option<seq<RawPattern>>)

  /** `Topology.deserialize(contents)`: the reserved words are dropped from
      the variables before any pattern is added; iterating a missing
      `patterns` list raises `TypeError`. */
  function Deserialize(top: Topology, doc: Document, split: ColonSplit): (r: Result<Topology, Error>)
    ensures r.Ok? ==> "any" !in r.value.variables && "none" !in r.value.variables
    ensures r.Ok? ==> forall v :: v in doc.variables && v != "any" && v != "none" ==>
              v in r.value.variables && r.value.variables[v] == doc.variables[v]
    ensures r.Ok? ==> forall v :: v in r.value.variables ==> v in doc.variables
    ensures doc.patterns == None ==> r == Err(TypeError)
  {
    var vars := doc.variables - {"any", "none"};
    match doc.patterns
    case None => Err(TypeError)
    case Some(raws) => AddAll(top.(variables := vars), raws, split)
  }

  /** `Topology.get_patterns(node)`. */
  function GetPatterns(top: Topology, n: Node): (ps: seq<Pattern>)
    ensures n.systemmac in top.nodes ==> ps == [top.nodes[n.systemmac]]
    ensures n.systemmac !in top.nodes ==> ps == top.globals
  {
    if n.systemmac in top.nodes then [top.nodes[n.systemmac]] else top.globals
  }

  /** `a` is `b` with some elements left out, order kept. */
  predicate Sublist(a: seq<Pattern>, b: seq<Pattern>)
    decreases |b|
  {
    |a| == 0 || (|b| > 0 && if a[0] == b[0] then Sublist(a[1..], b[1..]) else Sublist(a, b[1..]))
  }

  lemma {:induction false} SublistTail(a: seq<Pattern>, b: seq<Pattern>)
    requires |a| > 0 && Sublist(a, b)
    ensures Sublist(a[1..], b)
    decreases |b|, 0
  {
    if a[0] != b[0] {
      SublistTail(a, b[1..]);
      SublistSkip(a[1..], b[1..], b[0]);
      assert [b[0]] + b[1..] == b;
    } else {
      SublistSkip(a[1..], b[1..], b[0]);
      assert [b[0]] + b[1..] == b;
    }
  }

  /** Putting an element in front keeps a sublist a sublist. */
  lemma {:induction false} SublistSkip(a: seq<Pattern>, b: seq<Pattern>, x: Pattern)
    requires Sublist(a, b)
    ensures Sublist(a, [x] + b)
    decreases |b|, 1
  {
    if |a| > 0 && a[0] == x {
      SublistTail(a, b);
    }
    assert ([x] + b)[1..] == b;
  }

  /** A run of `Topology.match_node`: the matching patterns or the
      exception that escaped, and the topology's variables as the run left
      them, which a raising pattern has already updated. */
  datatype Run = Run(matches: Result<seq<Pattern>, Error>, variables: map<string, string>)

  /** The loop of `Topology.match_node`: the patterns that match, in order,
      and the variables after every pattern's `variables.update`. */
  function MatchCandidates(ps: seq<Pattern>, n: Node, vars: map<string, string>, regex: RegexEngine)
    : (r: Run)
    ensures r.matches.Ok? ==> Sublist(r.matches.value, ps)
    ensures vars.Keys <= r.variables.Keys
    decreases |ps|
  {
    if |ps| == 0 then Run(Ok([]), vars)
    else
      match MatchNode(ps[0], n, vars, regex)
      case Err(e) => Run(Err(e), VariablesAfter(ps[0], vars))
      case Ok(o) =>
        var rest := MatchCandidates(ps[1..], n, o.variables, regex);
        match rest.matches
        case Err(e) => rest
        case Ok(ms) =>
          var kept := if o.matched then [ps[0]] + ms else ms;
          assert Sublist(kept, ps) by {
            assert [ps[0]] + ps[1..] == ps;
            if o.matched {
              assert ([ps[0]] + ms)[1..] == ms;
            } else {
              SublistSkip(ms, ps[1..], ps[0]);
            }
          }
          Run(Ok(kept), rest.variables)
  }

  /** `Topology.match_node(node)`: the matching patterns, or the exception
      that escaped, and the topology with its variables as the run left
      them; its patterns never change. */
  function MatchTopology(top: Topology, n: Node, regex: RegexEngine): (r: (Result<seq<Pattern>, Error>, Topology))
    ensures r.1.globals == top.globals && r.1.nodes == top.nodes
    ensures top.variables.Keys <= r.1.variables.Keys
    ensures r.0.Ok? ==> Sublist(r.0.value, GetPatterns(top, n))
  {
    var run := MatchCandidates(GetPatterns(top, n), n, top.variables, regex);
    (run.matches, top.(variables := run.variables))
  }

  /** When a pattern raises, the run stops there and the variables that
      pattern brought stay in force afterwards. */
  lemma {:induction false} RaisedVariablesKept(ps: seq<Pattern>, n: Node, vars: map<string, string>,
                                               regex: RegexEngine)
    requires MatchCandidates(ps, n, vars, regex).matches.Err?
    ensures var r := MatchCandidates(ps, n, vars, regex);
      exists k :: 0 <= k < |ps| && MatchNode(ps[k], n, r.variables, regex).Err?
        && forall v :: v in ps[k].variables ==> v in r.variables && r.variables[v] == ps[k].variables[v]
    decreases |ps|
  {
    var r := MatchCandidates(ps, n, vars, regex);
    match MatchNode(ps[0], n, vars, regex)
    case Err(e) =>
      RaisingAgain(ps[0], n, vars, regex);
    case Ok(o) =>
      RaisedVariablesKept(ps[1..], n, o.variables, regex);
      var k :| 0 <= k < |ps[1..]| && MatchNode(ps[1..][k], n, r.variables, regex).Err?
        && forall v :: v in ps[1..][k].variables ==> v in r.variables && r.variables[v] == ps[1..][k].variables[v];
      assert ps[1..][k] == ps[k + 1];
  }

  /** A pattern that raised raises again under the variables it left. */
  lemma RaisingAgain(p: Pattern, n: Node, vars: map<string, string>, regex: RegexEngine)
    requires MatchNode(p, n, vars, regex).Err?
    ensures MatchNode(p, n, vars + p.variables, regex).Err?
  {
    assert (vars + p.variables) + p.variables == vars + p.variables;
  }

  lemma {:induction false} SublistOfSingle(a: seq<Pattern>, p: Pattern)
    requires Sublist(a, [p])
    ensures a == [] || a == [p]
  {
    if |a| > 0 && a[0] == p {
      assert Sublist(a[1..], []);
    }
  }

  /** A node whose identity has a bound pattern is matched against that
      pattern alone: no global pattern is ever returned for it. */
  lemma BoundNodeOnly(top: Topology, n: Node, regex: RegexEngine)
    requires n.systemmac in top.nodes
    requires MatchTopology(top, n, regex).0.Ok?
    ensures var ms := MatchTopology(top, n, regex).0.value;
      ms == [] || ms == [top.nodes[n.systemmac]]
  {
    SublistOfSingle(MatchTopology(top, n, regex).0.value, top.nodes[n.systemmac]);
  }

  predicate NoVariables(ps: seq<Pattern>) {
    forall i :: 0 <= i < |ps| ==> ps[i].variables == map[]
  }

  /** Reference definition: the patterns, in order, that match the node
      under fixed variables. */
  function Matching(ps: seq<Pattern>, n: Node, vars: map<string, string>, regex: RegexEngine): seq<Pattern>
    decreases |ps|
  {
    if |ps| == 0 then []
    else
      var o := MatchNode(ps[0], n, vars, regex);
      (if o.Ok? && o.value.matched then [ps[0]] else []) + Matching(ps[1..], n, vars, regex)
  }

  /** The variable-free case of `MatchCandidatesThreaded`: patterns without
      variables leave the variables alone, and the result is then exactly
      the order-preserving filter of the matching patterns. */
  lemma {:induction false} MatchCandidatesFilter(ps: seq<Pattern>, n: Node, vars: map<string, string>, regex: RegexEngine)
    requires NoVariables(ps)
    requires MatchCandidates(ps, n, vars, regex).matches.Ok?
    ensures MatchCandidates(ps, n, vars, regex) == Run(Ok(Matching(ps, n, vars, regex)), vars)
    decreases |ps|
  {
    if |ps| > 0 {
      assert vars + ps[0].variables == vars;
      assert NoVariables(ps[1..]) by {
        forall i | 0 <= i < |ps[1..]| ensures ps[1..][i].variables == map[] {
          assert ps[1..][i] == ps[i + 1];
        }
      }
      MatchCandidatesFilter(ps[1..], n, vars, regex);
      var rest := Matching(ps[1..], n, vars, regex);
      assert [] + rest == rest;
    }
  }

  /** The variables in force after a run over `ps` that raises nothing:
      each pattern's `variables.update`, applied in order. */
  function Layered(ps: seq<Pattern>, vars: map<string, string>): map<string, string>
    decreases |ps|
  {
    if |ps| == 0 then vars else Layered(ps[1..], VariablesAfter(ps[0], vars))
  }

  /** Reference definition: the patterns, in order, that match the node,
      each tried under the variables the patterns before it left. */
  function MatchingThreaded(ps: seq<Pattern>, n: Node, vars: map<string, string>, regex: RegexEngine): seq<Pattern>
    decreases |ps|
  {
    if |ps| == 0 then []
    else
      var o := MatchNode(ps[0], n, vars, regex);
      (if o.Ok? && o.value.matched then [ps[0]] else [])
        + MatchingThreaded(ps[1..], n, VariablesAfter(ps[0], vars), regex)
  }

  /** A run that raises nothing returns exactly the matching patterns, in
      order, each tried under the variables its predecessors left, and
      leaves every pattern's variables layered over the caller's. */
  lemma {:induction false} MatchCandidatesThreaded(ps: seq<Pattern>, n: Node, vars: map<string, string>,
                                                   regex: RegexEngine)
    requires MatchCandidates(ps, n, vars, regex).matches.Ok?
    ensures MatchCandidates(ps, n, vars, regex)
              == Run(Ok(MatchingThreaded(ps, n, vars, regex)), Layered(ps, vars))
    decreases |ps|
  {
    if |ps| > 0 {
      var o := MatchNode(ps[0], n, vars, regex);
      assert o.Ok?;
      MatchCandidatesThreaded(ps[1..], n, o.value.variables, regex);
      var rest := MatchingThreaded(ps[1..], n, o.value.variables, regex);
      assert [] + rest == rest;
    }
  }

  /** The variables after the first `j + 1` patterns are those after the
      next `j`, started from the first pattern's update. */
  lemma LayeredCons(ps: seq<Pattern>, vars: map<string, string>, j: nat)
    requires j < |ps|
    ensures Layered(ps[..j + 1], vars) == Layered(ps[1..][..j], VariablesAfter(ps[0], vars))
  {
    assert ps[..j + 1][1..] == ps[1..][..j];
  }

  /** The first pattern that raises, and the run's result at it. */
  predicate RaisesAt(ps: seq<Pattern>, n: Node, vars: map<string, string>, regex: RegexEngine, k: nat, r: Run) {
    && k < |ps|
    && (forall j :: 0 <= j < k ==> MatchNode(ps[j], n, Layered(ps[..j], vars), regex).Ok?)
    && MatchNode(ps[k], n, Layered(ps[..k], vars), regex).Err?
    && r == Run(Err(MatchNode(ps[k], n, Layered(ps[..k], vars), regex).error), Layered(ps[..k + 1], vars))
  }

  /** The patterns before the one that raises raised nothing: shifting
      from the tail to the whole when the head raises nothing. */
  lemma OkBeforeCons(ps: seq<Pattern>, n: Node, vars: map<string, string>, regex: RegexEngine, k: nat)
    requires k < |ps| && MatchNode(ps[0], n, vars, regex).Ok?
    requires forall j :: 0 <= j < k ==>
               MatchNode(ps[1..][j], n, Layered(ps[1..][..j], VariablesAfter(ps[0], vars)), regex).Ok?
    ensures forall j :: 0 <= j < k + 1 ==> MatchNode(ps[j], n, Layered(ps[..j], vars), regex).Ok?
  {
    forall j | 0 <= j < k + 1
      ensures MatchNode(ps[j], n, Layered(ps[..j], vars), regex).Ok?
    {
      if j == 0 {
        assert ps[..0] == [];
      } else {
        LayeredCons(ps, vars, j - 1);
        assert ps[j] == ps[1..][j - 1];
      }
    }
  }

  /** Raising at position `k` of the tail is raising at `k + 1` of the whole
      when the head raises nothing. */
  lemma RaisesAtCons(ps: seq<Pattern>, n: Node, vars: map<string, string>, regex: RegexEngine, k: nat, r: Run)
    requires |ps| > 0 && MatchNode(ps[0], n, vars, regex).Ok?
    requires RaisesAt(ps[1..], n, VariablesAfter(ps[0], vars), regex, k, r)
    ensures RaisesAt(ps, n, vars, regex, k + 1, r)
  {
    OkBeforeCons(ps, n, vars, regex, k);
    LayeredCons(ps, vars, k);
    LayeredCons(ps, vars, k + 1);
    assert ps[k + 1] == ps[1..][k];
  }

  /** A run that raises stops at the first pattern that raises, under the
      variables its predecessors left; the exception is that pattern's, and
      the variables are layered up to and including it. */
  lemma {:induction false} MatchCandidatesRaised(ps: seq<Pattern>, n: Node, vars: map<string, string>,
                                                 regex: RegexEngine)
    requires MatchCandidates(ps, n, vars, regex).matches.Err?
    ensures exists k :: RaisesAt(ps, n, vars, regex, k, MatchCandidates(ps, n, vars, regex))
    decreases |ps|
  {
    var r := MatchCandidates(ps, n, vars, regex);
    var o := MatchNode(ps[0], n, vars, regex);
    if o.Ok? {
      var vars' := o.value.variables;
      MatchCandidatesRaised(ps[1..], n, vars', regex);
      var k :| RaisesAt(ps[1..], n, vars', regex, k, MatchCandidates(ps[1..], n, vars', regex));
      assert r == MatchCandidates(ps[1..], n, vars', regex);
      RaisesAtCons(ps, n, vars, regex, k, r);
    } else {
      assert ps[..0] == [];
      assert ps[..1] == [ps[0]];
      assert ps[..1][1..] == [];
      assert RaisesAt(ps, n, vars, regex, 0, r);
    }
  }

  /** `Topology.match_node` in full when nothing raises: the matching
      patterns among those `get_patterns` returns, each tried under the
      variables the ones before it left, and the topology's variables
      layered with every candidate pattern's. */
  lemma MatchTopologyThreaded(top: Topology, n: Node, regex: RegexEngine)
    requires MatchTopology(top, n, regex).0.Ok?
    ensures MatchTopology(top, n, regex)
              == (Ok(MatchingThreaded(GetPatterns(top, n), n, top.variables, regex)),
                  top.(variables := Layered(GetPatterns(top, n), top.variables)))
  {
    MatchCandidatesThreaded(GetPatterns(top, n), n, top.variables, regex);
  }
}
